=== FILE: README.md ===
# wordle_solve in Dafny

A model of the solving core of `wordle_solve`, two Python scripts that play
Wordle in a browser: `wordle_archive_solver.py` (archived puzzles) and
`wordle_solve_automated.py` (the daily puzzle). Both load a word list, enter a
fixed start word, read back the row of tile colours and call `solve_row`.
`solve_row` eliminates every word the row rules out, then recommends the
surviving word with the highest frequency and removes it from the list. The
recommendation is entered next, for at most six rounds.

The two copies of `solve_row` differ in one branch. The archive solver also
removes every word containing a repeated letter whose tiles are all grey. One
engine covers both: `Elimination.Rules` carries the flag `clearAllAbsent`
(`ArchiveRules`, `AutomatedRules`) and the count test (`ExactCount` as written,
`AtLeastCount` as corrected).

Modules, in dependency order:

- `Results`, `Seqs` (seqs.dfy): `Option`/`Result`, order-preserving `Filter`,
  Python's `list.remove` as `RemoveFirst`, and the subsequence relation `Embeds`.
- `Words` (words.dfy): five-letter words, `Counter` as `Count`, `str.strip`,
  `str.lower`, `load_words`, the start-word check.
- `Statuses` (status.dfy): the four tile states, `solution_found`, the list
  `multi_char[c]` (`StatusesOf`), and the six count patterns.
- `Elimination` (elimination.dfy): the per-position pass and the count pass
  of `solve_row`, stated as filters, with the position-independent meaning
  `Admits`.
- `CountPass` (countpass.dfy): the count pass as both scripts write it. It
  iterates a stale snapshot and can call `list.remove` on a word already gone.
- `Selection` (selection.dfy): the frequency scan, with its strict `<` and a
  running maximum that starts at 0, and the whole of `solve_row` as `SolveRow`.
- `Feedback` (feedback.dfy): Wordle's colouring of a guess against an answer.
  It is used only to judge elimination: which tests can drop the answer.
- `Session` (session.dfy): `main`. It has the start-word check, round 1
  (`solve_row` before `solution_found`) and rounds 2 to 6 (`solution_found`
  first), with the board as a parameter `observe`.
- `Soundness` (soundness.dfy): `main` against a board coloured by `Feedback`.
  With the corrected count test the answer is never lost.

Points where the code behaves in ways a reader might not expect, and which the
model keeps as written:

- The count pass fires only for the six status lists listed in `solve_row`
  (archive lines 243-255). Other lists without a grey tile, such as
  [Correct, Correct] and [Present, Present], add no count test.
- The count test is exact, although the script's own comment (archive lines
  232-237) only asks that a word holds the repeated copies.
  The exact test can drop the true answer (second finding below).
- A missing frequency raises `KeyError`. No survivor scoring above 0 leaves
  `recommended_word` unbound. These are the outcomes `MissingScore` and
  `NoCandidate`.
- An "other" tile exits after the earlier positions' removals.
  `Elimination.Pass.Stopped` carries that partly filtered pool, and
  `Selection.StatusOther` reports the position at which the script exits.
- The word list is not deduplicated.

## Model

| member | source | states |
|---|---|---|
| Words.Strip | wordle_archive_solver.py:109-110 | `str.strip()`: the result is a slice of the line with only whitespace before and after it, and it neither starts nor ends with whitespace |
| Words.Lower | wordle_archive_solver.py:110 | `str.lower()`: same length, each character lowered on its own (an upper-case ASCII letter becomes its lower-case letter), no upper-case letter left, every other character unchanged |
| Words.LoadWords | wordle_archive_solver.py:103-112 | at most one word per line, every loaded word lower-case |
| Words.LoadWordsLine | wordle_archive_solver.py:108-110 | one line contributes its stripped, lower-cased form exactly when that form has five characters, and nothing otherwise |
| Words.LoadWordsAppend | wordle_archive_solver.py:105-110 | the list is built line by line in file order: the words of a file split in two are the words of the first part followed by those of the second |
| Words.LoadWordsMembers | wordle_archive_solver.py:103-112 | a line contributes exactly when its stripped form has five characters, and then contributes that form lower-cased; every loaded word comes from such a line |
| Words.StartWordValid | wordle_archive_solver.py:304-306 | the start word is accepted exactly when it is in the word list or the allowed guesses, and an accepted word has five letters |
| Statuses.OnlyStatus | wordle_archive_solver.py:214 | `set(ss) == {s}` holds exactly when the list is non-empty and every entry is `s` |
| Statuses.SolutionFound | wordle_archive_solver.py:84-90 | a row is solved exactly when every tile is green |
| Statuses.StatusesOf | wordle_archive_solver.py:190-197 | `multi_char[c]` has one entry per copy of `c` in the guess, holds the status of every such position and nothing else |
| Statuses.StatusesOfAppend | wordle_archive_solver.py:193-197 | the list is in guess order: one more guess letter appends its status exactly when it is `c` |
| Statuses.PatternShape | wordle_archive_solver.py:243-255 | every count pattern has two or three entries, both a yellow and a green, and no grey |
| Elimination.KeepAt | wordle_archive_solver.py:200-227 | the test of one position, in the order-independent terms of `Admits`: a green tile needs the letter there; a yellow tile needs it elsewhere; a grey tile forbids it there, forbids it everywhere when the guess holds it once, and (archive solver) when all its tiles are grey; an "other" tile removes nothing (partner: `Elimination.KeepAllIffAdmits`) |
| Elimination.PositionPass | wordle_archive_solver.py:199-231 | the position tests keep, in order, exactly the words passing every test up to the first "other" tile, and stop there (how many copies: `Elimination.PositionPassCopies`) |
| Elimination.PositionPassCopies | wordle_archive_solver.py:199-231 | a word passing every applied position test keeps all its copies in the pool, and a word failing one loses all of them |
| Elimination.CountFilter | wordle_archive_solver.py:239-259 | every survivor holds each pattern-matched repeated letter exactly as often as the guess, every word meeting that is kept with all its copies, a word failing it loses all its copies, and a guess without a matched letter changes nothing |
| Elimination.Eliminate | wordle_archive_solver.py:199-259 | the result is a subsequence of the pool, and elimination stops exactly when the row has an "other" tile, at the first one |
| Elimination.KeepAllIffAdmits | wordle_archive_solver.py:200-227 | passing every position test and the count test is the same as satisfying every tile of the row |
| Elimination.EliminateKeepsAdmitted | wordle_archive_solver.py:199-259 | the survivors of a row without "other" are exactly the pool words the row admits |
| Elimination.SurvivorsMatchCorrect | wordle_archive_solver.py:220-227 | a green tile leaves only words with the guessed letter at that position |
| Elimination.SurvivorsHonourPresent | wordle_archive_solver.py:202-206 | a yellow tile leaves only words holding the letter elsewhere |
| Elimination.SurvivorsLackSingleAbsent | wordle_archive_solver.py:208-210 | a grey tile on a letter the guess holds once leaves no word containing it |
| Elimination.ArchiveClearsAllAbsentLetter | wordle_archive_solver.py:211-216 | archive solver: a repeated letter whose tiles are all grey is gone from every survivor |
| Elimination.RepeatedAbsentRemovesOnlyThatPosition | wordle_solve_automated.py:215-221 | a grey tile on a repeated letter, outside the archive's extra branch, removes the words with that letter at that position and no others |
| Elimination.SurvivorsHaveExactCount | wordle_archive_solver.py:243-258 | after the count pass, every survivor has the guess's count of each pattern-matched letter |
| Elimination.StopsAtFirstOther | wordle_archive_solver.py:229-231 | an "other" tile stops elimination at the first one, with exactly the words passing the earlier positions |
| Elimination.EliminateIdempotent | wordle_archive_solver.py:199-259 | applying the same row again to the survivors removes nothing more |
| Elimination.GuessEliminated | wordle_archive_solver.py:199-227 | unless the row is all green, the guess itself does not survive its own row |
| Elimination.VariantsDisagreeOnAllAbsent | wordle_archive_solver.py:211-216 | after "geese" with every tile grey, the automated solver keeps "early" and the archive solver drops it |
| Seqs.RemoveFirst | wordle_archive_solver.py:282 | `list.remove(x)`: when the list holds `x`, the result is the list with its first copy of `x` cut out (so one copy fewer), and the list unchanged otherwise (where Python raises; `CountPass.RemoveEach` turns that case into an error) |
| CountPass.RemoveEach | wordle_archive_solver.py:244-246 | successive `list.remove` calls: on success the result is a subsequence with one entry fewer per call; a failure names a word that was to be removed (partner: `CountPass.RemoveEachSpec`) |
| CountPass.RemoveEachSpec | wordle_archive_solver.py:244-246 | successive `list.remove` calls on duplicate-free lists succeed exactly when every word to remove is present, and leave the other words in order |
| CountPass.WrongCount | wordle_archive_solver.py:244-246 | the words removed for a letter are exactly the snapshot words whose count of it differs from the guess's, in snapshot order, each as many times as the snapshot lists it |
| CountPass.CountPassFrom | wordle_archive_solver.py:239-259 | the stale-snapshot loop from a given letter on: on success the live list only shrinks, keeping order; a crash names a snapshot word (partners: `CountPass.CountPassFromSpec`, `CountPass.CountPassFromCrash`) |
| CountPass.CountPassAsWritten | wordle_archive_solver.py:239-259 | the whole count pass as written: on success a subsequence of its input, and a crash names a word of its input (partners: `CountPass.AsWrittenAgreesWithFilter`, `CountPass.CrashIffTwoFailedLetters`) |
| CountPass.EliminateAsWritten | wordle_archive_solver.py:199-259 | the elimination of `solve_row` as written: it crashes only on a row without "other", naming a pool word; otherwise it yields a subsequence of the pool, stopped exactly at the first "other" tile (partner: `CountPass.EliminateAgreesAsWritten`) |
| CountPass.CountPassFromSpec | wordle_archive_solver.py:239-259 | over a duplicate-free snapshot: when the stale-snapshot pass does not crash, it leaves exactly the snapshot words meeting every count test visited |
| CountPass.EliminateAgreesAsWritten | wordle_archive_solver.py:199-259 | under the exact count and over a duplicate-free pool, the corrected elimination equals the elimination as written whenever that does not raise; where it raises, some word fails two letters' counts and the corrected elimination carries on |
| CountPass.AsWrittenAgreesWithFilter | wordle_archive_solver.py:239-259 | when the pass as written does not crash, it agrees with `Elimination.CountFilter` |
| CountPass.CountPassFromCrash | wordle_archive_solver.py:240-259 | over a duplicate-free snapshot, from any letter on, the stale-snapshot pass crashes exactly when a later matched letter names a word that an earlier matched letter already removed |
| CountPass.CrashIffTwoFailedLetters | wordle_archive_solver.py:239-259 | over a duplicate-free pool, the count pass as written raises `ValueError` exactly when some word fails the count tests of two different letters |
| CountPass.LevelPearlCrash | wordle_archive_solver.py:239-259 | guess "level" with l = [yellow, green] and e = [green, yellow] over the pool ["pearl"]: the second letter removes "pearl" again and `list.remove` fails |
| Selection.PickFrom | wordle_archive_solver.py:275-279 | from any point of the scan: a missing frequency is reported at the first unscored word; otherwise the pick is the first position of maximal positive frequency, or nothing if none is positive |
| Selection.PickBest | wordle_archive_solver.py:269-279 | the scan from a running maximum of 0 picks the first survivor of maximal positive frequency |
| Selection.PickBestIsFirstMaximum | wordle_archive_solver.py:275-279 | the scan picks position `k` exactly when every survivor is scored and `k` is the first maximum |
| Selection.SolveRow | wordle_archive_solver.py:199-288 | `solve_row`: stops exactly on an "other" tile; otherwise it recommends a survivor of maximal positive frequency, earliest among ties, and the new pool is the survivors with the first copy of that word cut out; or it reports the first unscored survivor, or that no survivor scores above 0 |
| Selection.RecommendationAdmitted | wordle_archive_solver.py:275-282 | the recommended word satisfies the row it was chosen from |
| Selection.RecommendationLeavesPool | wordle_archive_solver.py:282 | over a duplicate-free pool the recommended word leaves the pool, which then holds exactly the other survivors |
| Feedback.AnswerAdmitted | wordle_archive_solver.py:199-259 | with the at-least count test, the true answer satisfies every tile of its own row, for both scripts |
| Feedback.AnswerSurvives | wordle_archive_solver.py:199-259 | with the at-least count test, elimination never removes the true answer |
| Feedback.SolvedIffAnswer | wordle_archive_solver.py:84-90 | a row is all green exactly when the guess is the answer |
| Feedback.ExactCountDropsAnswer | wordle_archive_solver.py:243-246 | guess "there" against answer "eerie" gives e = [yellow, green]; the exact count test then removes the answer |
| Session.CallSurvivors | wordle_archive_solver.py:356-383 | when the pool and pending guess are exactly the words consistent with the history, the survivors of the next call are exactly the words consistent with the history plus that guess |
| Session.CallKeepsPoolExact | wordle_archive_solver.py:383 | after a recommendation, the new pool plus the new guess are again exactly the consistent words |
| Session.CallRecommendsTop | wordle_archive_solver.py:269-282 | the word a call recommends has a positive frequency, and no listed word consistent with the rows so far has a higher one |
| Session.CallStops | wordle_archive_solver.py:275-282 | a call that ends the script names a consistent unscored word, or every consistent word scores at most 0 |
| Session.Enter | wordle_archive_solver.py:371-383 | entering a recommended word keeps every guess consistent with the earlier rows and no word entered twice |
| Session.HaltedAtOpening | wordle_archive_solver.py:356-357 | when the first call of `solve_row` returns no word, ending the run in round 1 with that outcome is justified on any row, green included (that `main` does end so is `Session.Opening`'s contract) |
| Session.Round | wordle_archive_solver.py:371-383 | one later round: the run ends exactly when the entered word's row is green or `solve_row` returns no word; otherwise the next word and pool are exactly those `solve_row` returns, and the state between rounds is kept |
| Session.LaterRounds | wordle_archive_solver.py:371-383 | rounds 2 to 6 first enter the pending word, then each recommendation in turn; they end on a green row, on a call without a recommendation, or after round 6 with the pool exact and the pending word top-scored |
| Session.Opening | wordle_archive_solver.py:351-362 | round 1: `solve_row` runs before `solution_found`, so a call without a recommendation ends the run on any row, a green row after a recommendation ends it solved, and otherwise the recommendation is the second word entered |
| Session.Play | wordle_archive_solver.py:298-383 | `main`: a bad start word ends it at once; otherwise round 1 is as in `Session.Opening`, at most six distinct words are entered, each after the first consistent with the earlier rows and top-scored among them, and the way the run ends is justified by its last row and call |
| Soundness.AnswerNeverLost | wordle_archive_solver.py:356-383 | when every listed word has a frequency, against a board coloured for a listed answer with positive frequency, using the at-least count test, a run either ends green or gives up still holding the answer |
| Soundness.PlayAgainst | wordle_solve_automated.py:301-362 | the same for a whole game: a green ending is on the answer, and, when every loaded word has a frequency, a started game with the at-least count test ends green or with the answer pending or in the pool |

## Left out

- Browser control is not modelled, as it is I/O. This covers `sendkeys`, `find_bg` (colours to statuses), the Selenium driver and `time.sleep`. A row arrives as statuses, and an unreadable colour is `Other`.
- Printing, `rprint` and the execution-time reports are not modelled, as they are output only.
- File reading is not modelled. The word files arrive as lists of lines, and `words_json.txt` as a map from word to frequency.
- The archive-number check against today's date (archive lines 313-321) is not modelled, because it depends on the clock.
- `sys.exit` and the uncaught Python errors become values: `BadStartWord` and `Halted` with an `Outcome` in `Session`, and `Err(RemovedTwice)` from `CountPass.EliminateAsWritten`.
- Selection.SolveRow: eliminates with the corrected count filter (`Elimination.CountFilter`), so where the script's count pass raises `ValueError` (first finding below) `SolveRow` carries on. `CountPass.EliminateAgreesAsWritten` shows the two agree whenever the script does not crash on a pool without repeated words.
- Session.LaterRounds: built on `Selection.SolveRow`, so a round never ends on the count pass's `ValueError`.
- Session.Play: the same; a whole run never ends on the count pass's `ValueError`. Like `Session.LaterRounds`, it states that each word after the second was top-scored among the consistent words, not which of several equally scored words came first in the pool; `Session.Round` states each round's choice exactly.
- Session.LaterRounds: for the words after the pending one it states that each was top-scored among the consistent words, not which of several equally scored words came first in the pool; `Session.Round` states each round's choice exactly, as `Selection.SolveRow` makes it.
- Statuses.StatusesOf: matches the guess letter literally, where `re.finditer` reads it as a regular expression. The two agree for letters. A guess holding `.`, `(`, `|` or another metacharacter is not modelled; `load_words` filters lines only by length, so a word file with such a word could supply one.
- Frequencies are `real`. JSON floats, their rounding and NaN are not modelled.
- The count pass visits letters in the order of their first occurrence in the guess, not in `Counter.most_common()` order. Neither the final pool nor whether a word is removed twice depends on that order.
- Words.Strip: only ASCII whitespace counts as whitespace, not the full Unicode set of `str.strip()`.
- Words.Lower: only ASCII letters are lowered, not the full Unicode mapping of `str.lower()`.
- CountPass.CrashIffTwoFailedLetters: stated only for pools without repeated words. The argument about successive `list.remove` calls (`CountPass.RemoveEachSpec`) assumes distinct words. A word file that lists a word twice is not covered.
- CountPass.AsWrittenAgreesWithFilter: stated only for pools without repeated words, for the same reason.
- CountPass.EliminateAgreesAsWritten: stated only for pools without repeated words, for the same reason.
- CountPass.CountPassFromSpec: stated only for a snapshot without repeated words, for the same reason; for a repeated word it does not say what the pass leaves.
- CountPass.CountPassFromCrash: stated only for a snapshot without repeated words, for the same reason; for a repeated word it does not say when the pass crashes.
- The pool is the explicit value `pool`, not the global `current_word_list`.

## Findings

| source | as written | input that shows it | evidently intended | confidence | as-written member | corrected member |
|---|---|---|---|---|---|---|
| wordle_archive_solver.py:239-259 | the count pass scans `word_list`, which is refreshed only after all letters, so a word failing the counts of two matched letters is passed to `list.remove` twice and the second call raises `ValueError` (the same in wordle_solve_automated.py:241-261) | guess "level", row [Present, Correct, Absent, Present, Correct], pool ["pearl"] | remove every word that fails any count test, once | high; not executed | CountPass.LevelPearlCrash | Elimination.CountFilter |
| wordle_archive_solver.py:243-246 | a repeated letter with yellow and green tiles keeps only words with exactly as many copies as the guess, but such tiles only show that the answer has at least that many | guess "there" against answer "eerie": row [Absent, Absent, Present, Present, Correct], and "eerie" has three e's | keep words with at least as many copies, which never drops the answer | medium; not executed | Feedback.ExactCountDropsAnswer | Feedback.AnswerAdmitted |

=== FILE: countpass.dfy ===
/**
 * The exact-count pass of `solve_row` as both scripts write it. For each letter
 * repeated in the guess whose status list is one of `CountPatterns`, `solve_row`
 * scans the snapshot `word_list` and calls `current_word_list.remove(word)` for
 * every word with a different count of that letter. The snapshot is refreshed only
 * after all letters, so when two letters match a pattern, a word failing both is
 * removed twice and the second `list.remove` raises `ValueError`.
 *
 * Letters are visited here in the order of their first occurrence in the guess,
 * where `solve_row` uses `Counter.most_common()` order. Neither the crash nor the
 * final pool depends on that order: a crash happens exactly when some word fails
 * two matched letters, and otherwise the pool is `Elimination.CountFilter`'s.
 */
module CountPass {
  import opened Results
  import opened Words
  import opened Statuses
  import opened Seqs
  import opened Elimination

  /** `list.remove(x): x not in list`. */
  datatype Crash = RemovedTwice(word: Word)

  /** Calls `current.remove(w)` for each `w` of `ws` in turn. */
  function RemoveEach(current: seq<Word>, ws: seq<Word>): (r: Result<seq<Word>, Crash>)
    decreases |ws|
    ensures r.Ok? ==> Embeds(r.value, current) && |r.value| + |ws| == |current|
    ensures r.Err? ==> r.error.word in ws
  {
    if |ws| == 0 then EmbedsSelf(current); Ok(current)
    else if ws[0] !in current then Err(RemovedTwice(ws[0]))
    else
      var next := RemoveFirst(current, ws[0]);
      var r := RemoveEach(next, ws[1..]);
      assert |multiset(next)| + 1 == |multiset(current)|;
      if r.Ok? then EmbedsTransitive(r.value, next, current); r else r
  }

  /** Over duplicate-free lists, the removals succeed exactly when every word to remove is present. */
  lemma {:induction false} RemoveEachSpec(current: seq<Word>, ws: seq<Word>)
    requires Distinct(current) && Distinct(ws)
    ensures RemoveEach(current, ws).Ok? <==> forall w | w in ws :: w in current
    ensures var r := RemoveEach(current, ws);
            r.Ok? ==> Embeds(r.value, current) && forall w :: w in r.value <==> w in current && w !in ws
    decreases |ws|
  {
    if |ws| == 0 {
      EmbedsSelf(current);
    } else {
      var tail := ws[1..];
      assert Distinct(tail) by {
        forall i, j | 0 <= i < j < |tail|
          ensures tail[i] != tail[j]
        {
          assert tail[i] == ws[i + 1] && tail[j] == ws[j + 1];
        }
      }
      assert ws[0] !in tail by {
        forall k | 0 <= k < |tail|
          ensures tail[k] != ws[0]
        {
          assert tail[k] == ws[k + 1];
        }
      }
      if ws[0] in current {
        var next := RemoveFirst(current, ws[0]);
        RemoveFirstDistinct(current, ws[0]);
        RemoveEachSpec(next, tail);
        var r := RemoveEach(next, tail);
        if r.Ok? {
          EmbedsTransitive(r.value, next, current);
        }
        assert forall w | w in ws :: w == ws[0] || w in tail;
      }
    }
  }

  /** The snapshot words whose count of `c` differs from the guess's: the ones `solve_row` removes for `c`. */
  function WrongCount(snapshot: seq<Word>, g: Word, c: char): (r: seq<Word>)
    ensures Embeds(r, snapshot)
    ensures forall w | w in r :: w in snapshot && Count(w, c) != Count(g, c)
    ensures forall w | w in snapshot && Count(w, c) != Count(g, c) :: w in r
    ensures forall w {:trigger multiset(r)[w]} | w in snapshot :: multiset(r)[w] == if Count(w, c) != Count(g, c) then multiset(snapshot)[w] else 0
  {
    Filter(snapshot, w => Count(w, c) != Count(g, c))
  }

  /** The letters of `g` visited from position `k` on; `current` is the live list, `snapshot` the stale copy. */
  function CountPassFrom(snapshot: seq<Word>, current: seq<Word>, g: Word, row: Row, k: nat): (r: Result<seq<Word>, Crash>)
    requires k <= WordLength
    decreases WordLength - k
    ensures r.Ok? ==> Embeds(r.value, current)
    ensures r.Err? ==> r.error.word in snapshot
  {
    if k == WordLength then EmbedsSelf(current); Ok(current)
    else
      var c := g[k];
      if c in g[..k] || Count(g, c) <= 1 || StatusesOf(g, row, c) !in CountPatterns then
        CountPassFrom(snapshot, current, g, row, k + 1)
      else
        match RemoveEach(current, WrongCount(snapshot, g, c))
        case Err(e) => Err(e)
        case Ok(next) =>
          var r := CountPassFrom(snapshot, next, g, row, k + 1);
          if r.Ok? then EmbedsTransitive(r.value, next, current); r else r
  }

  /** The exact-count pass of `solve_row` over the pool left by the per-position pass. */
  function CountPassAsWritten(pool: seq<Word>, g: Word, row: Row): (r: Result<seq<Word>, Crash>)
    ensures r.Ok? ==> Embeds(r.value, pool)
    ensures r.Err? ==> r.error.word in pool
  {
    CountPassFrom(pool, pool, g, row, 0)
  }

  /** The whole elimination of `solve_row` as written: per-position pass, then the stale-snapshot count pass. */
  function EliminateAsWritten(pool: seq<Word>, g: Word, row: Row, rules: Rules): (r: Result<Pass, Crash>)
    ensures r.Err? ==> Other !in row && r.error.word in pool
    ensures r.Ok? ==> Embeds(r.value.pool, pool) && (r.value.Stopped? <==> Other in row)
    ensures r.Ok? && r.value.Stopped? ==> r.value.index < WordLength && row[r.value.index] == Other
                                          && forall j | 0 <= j < r.value.index :: row[j] != Other
  {
    var p := PositionPass(pool, g, row, rules, 0);
    EmbedsMembers(p.pool, pool);
    if p.Stopped? then Ok(p)
    else
      match CountPassAsWritten(p.pool, g, row)
      case Err(e) => Err(e)
      case Ok(q) => EmbedsTransitive(q, p.pool, pool); Ok(Filtered(q))
  }

  /** The count tests of the letters among the first `k` positions. */
  predicate CountsUpTo(w: Word, g: Word, row: Row, k: nat)
    requires k <= WordLength
  {
    forall c | c in g[..k] && Count(g, c) > 1 && StatusesOf(g, row, c) in CountPatterns :: Count(w, c) == Count(g, c)
  }

  lemma CountsUpToStep(w: Word, g: Word, row: Row, k: nat)
    requires k < WordLength
    ensures CountsUpTo(w, g, row, k + 1) <==>
              && CountsUpTo(w, g, row, k)
              && (Count(g, g[k]) > 1 && StatusesOf(g, row, g[k]) in CountPatterns ==> Count(w, g[k]) == Count(g, g[k]))
  {
    assert g[..k + 1] == g[..k] + [g[k]];
  }

  /** The letter at `k` adds no count test: the live list is already right for `k + 1`. */
  lemma SkipLetter(snapshot: seq<Word>, current: seq<Word>, g: Word, row: Row, k: nat)
    requires k < WordLength
    requires g[k] in g[..k] || Count(g, g[k]) <= 1 || StatusesOf(g, row, g[k]) !in CountPatterns
    requires forall w :: w in current <==> w in snapshot && CountsUpTo(w, g, row, k)
    ensures forall w :: w in current <==> w in snapshot && CountsUpTo(w, g, row, k + 1)
  {
    forall w | w in snapshot
      ensures CountsUpTo(w, g, row, k + 1) <==> CountsUpTo(w, g, row, k)
    {
      CountsUpToStep(w, g, row, k);
    }
  }

  /** The letter at `k` has a count test: if the removals succeed, the live list is right for `k + 1`. */
  lemma RemoveLetter(snapshot: seq<Word>, current: seq<Word>, g: Word, row: Row, k: nat)
    requires k < WordLength && Count(g, g[k]) > 1 && StatusesOf(g, row, g[k]) in CountPatterns
    requires Distinct(snapshot) && Embeds(current, snapshot)
    requires forall w :: w in current <==> w in snapshot && CountsUpTo(w, g, row, k)
    ensures var r := RemoveEach(current, WrongCount(snapshot, g, g[k]));
            r.Ok? ==> && Embeds(r.value, snapshot)
                      && forall w :: w in r.value <==> w in snapshot && CountsUpTo(w, g, row, k + 1)
  {
    var c := g[k];
    var ws := WrongCount(snapshot, g, c);
    EmbedsDistinct(current, snapshot);
    EmbedsDistinct(ws, snapshot);
    RemoveEachSpec(current, ws);
    var r := RemoveEach(current, ws);
    if r.Ok? {
      EmbedsTransitive(r.value, current, snapshot);
      forall w: Word
        ensures w in r.value <==> w in snapshot && CountsUpTo(w, g, row, k + 1)
      {
        CountsUpToStep(w, g, row, k);
        var inWs := w in ws;
        assert inWs <==> w in snapshot && Count(w, c) != Count(g, c);
        var inCur := w in current;
        assert inCur <==> w in snapshot && CountsUpTo(w, g, row, k);
        assert w in r.value <==> inCur && !inWs;
      }
    }
  }

  lemma {:induction false} CountPassFromSpec(snapshot: seq<Word>, current: seq<Word>, g: Word, row: Row, k: nat)
    requires k <= WordLength
    requires Distinct(snapshot) && Embeds(current, snapshot)
    requires forall w :: w in current <==> w in snapshot && CountsUpTo(w, g, row, k)
    ensures var r := CountPassFrom(snapshot, current, g, row, k);
            r.Ok? ==> Embeds(r.value, snapshot) && forall w :: w in r.value <==> w in snapshot && CountsUpTo(w, g, row, WordLength)
    decreases WordLength - k
  {
    if k < WordLength {
      var c := g[k];
      if c in g[..k] || Count(g, c) <= 1 || StatusesOf(g, row, c) !in CountPatterns {
        SkipLetter(snapshot, current, g, row, k);
        assert CountPassFrom(snapshot, current, g, row, k) == CountPassFrom(snapshot, current, g, row, k + 1);
        CountPassFromSpec(snapshot, current, g, row, k + 1);
      } else {
        RemoveLetter(snapshot, current, g, row, k);
        var r := RemoveEach(current, WrongCount(snapshot, g, c));
        if r.Ok? {
          assert CountPassFrom(snapshot, current, g, row, k) == CountPassFrom(snapshot, r.value, g, row, k + 1);
          CountPassFromSpec(snapshot, r.value, g, row, k + 1);
        }
      }
    }
  }

  /**
   * Whenever the pass as written does not crash, it leaves exactly the pool of
   * `CountFilter`, the crash-free filter the model uses.
   */
  lemma AsWrittenAgreesWithFilter(pool: seq<Word>, g: Word, row: Row)
    requires Distinct(pool)
    ensures CountPassAsWritten(pool, g, row).Ok? ==>
              CountPassAsWritten(pool, g, row).value == CountFilter(pool, g, row, ExactCount)
  {
    EmbedsSelf(pool);
    CountPassFromSpec(pool, pool, g, row, 0);
    var r := CountPassAsWritten(pool, g, row);
    if r.Ok? {
      var f := CountFilter(pool, g, row, ExactCount);
      assert g[..WordLength] == g;
      forall w
        ensures w in r.value <==> w in f
      {
        if w in pool {
          assert CountsUpTo(w, g, row, WordLength) <==> CountOk(w, g, row, ExactCount);
        }
      }
      EmbedsUnique(r.value, f, pool);
    }
  }

  /**
   * The corrected `Elimination.Eliminate` against the elimination as written,
   * under the scripts' exact count: over a duplicate-free pool they agree
   * whenever the script survives the count pass, and where the script raises
   * `ValueError` the model carries on with a filtered pool.
   */
  lemma EliminateAgreesAsWritten(pool: seq<Word>, g: Word, row: Row, rules: Rules)
    requires Distinct(pool) && rules.countRule == ExactCount
    ensures var e := EliminateAsWritten(pool, g, row, rules);
            e.Ok? ==> e.value == Eliminate(pool, g, row, rules)
    ensures EliminateAsWritten(pool, g, row, rules).Err? ==>
              && Eliminate(pool, g, row, rules).Filtered?
              && FailsTwoLetters(PositionPass(pool, g, row, rules, 0).pool, g, row)
  {
    var p := PositionPass(pool, g, row, rules, 0);
    EmbedsDistinct(p.pool, pool);
    if p.Filtered? {
      AsWrittenAgreesWithFilter(p.pool, g, row);
      CrashIffTwoFailedLetters(p.pool, g, row);
    }
  }

  /** `w` fails the count test of letter `c`, which the pass applies. */
  predicate FailsCount(w: Word, g: Word, row: Row, c: char) {
    c in g && Count(g, c) > 1 && StatusesOf(g, row, c) in CountPatterns && Count(w, c) != Count(g, c)
  }

  /** Some snapshot word fails the count tests of two different letters. */
  predicate FailsTwoLetters(snapshot: seq<Word>, g: Word, row: Row) {
    exists w, c, d | w in snapshot && c != d :: FailsCount(w, g, row, c) && FailsCount(w, g, row, d)
  }

  /**
   * Some snapshot word fails the test of the letter first occurring at `j`,
   * with `k <= j`, and of a different letter at an earlier position `i`.
   */
  predicate FailsTwiceFrom(snapshot: seq<Word>, g: Word, row: Row, k: nat) {
    exists w, i, j | w in snapshot && 0 <= i < j < WordLength && k <= j && g[j] !in g[..j] && g[i] != g[j] ::
      FailsCount(w, g, row, g[i]) && FailsCount(w, g, row, g[j])
  }

  /** A letter without a count test adds no double failure. */
  lemma FailsTwiceSkip(snapshot: seq<Word>, g: Word, row: Row, k: nat)
    requires k < WordLength
    requires g[k] in g[..k] || Count(g, g[k]) <= 1 || StatusesOf(g, row, g[k]) !in CountPatterns
    ensures FailsTwiceFrom(snapshot, g, row, k) <==> FailsTwiceFrom(snapshot, g, row, k + 1)
  {
    if FailsTwiceFrom(snapshot, g, row, k) {
      var w, i, j :| && w in snapshot && 0 <= i < j < WordLength && k <= j && g[j] !in g[..j] && g[i] != g[j]
                     && FailsCount(w, g, row, g[i]) && FailsCount(w, g, row, g[j]);
      assert j != k;
    }
  }

  /** A failed removal for the letter at `k` is a word failing that letter and an earlier one. */
  lemma FailsTwiceAt(snapshot: seq<Word>, current: seq<Word>, g: Word, row: Row, k: nat, w: Word)
    requires k < WordLength && g[k] !in g[..k] && Count(g, g[k]) > 1 && StatusesOf(g, row, g[k]) in CountPatterns
    requires forall v :: v in current <==> v in snapshot && CountsUpTo(v, g, row, k)
    requires w in WrongCount(snapshot, g, g[k]) && w !in current
    ensures FailsTwiceFrom(snapshot, g, row, k)
  {
    assert !CountsUpTo(w, g, row, k);
    var d :| d in g[..k] && Count(g, d) > 1 && StatusesOf(g, row, d) in CountPatterns && Count(w, d) != Count(g, d);
    var i :| 0 <= i < k && g[..k][i] == d;
    assert g[i] == d && FailsCount(w, g, row, g[i]) && FailsCount(w, g, row, g[k]);
  }

  /** When every removal for the letter at `k` succeeds, no double failure ends at `k`. */
  lemma FailsTwiceNotAt(snapshot: seq<Word>, current: seq<Word>, g: Word, row: Row, k: nat)
    requires k < WordLength && g[k] !in g[..k] && Count(g, g[k]) > 1 && StatusesOf(g, row, g[k]) in CountPatterns
    requires forall v :: v in current <==> v in snapshot && CountsUpTo(v, g, row, k)
    requires forall v | v in WrongCount(snapshot, g, g[k]) :: v in current
    ensures FailsTwiceFrom(snapshot, g, row, k) <==> FailsTwiceFrom(snapshot, g, row, k + 1)
  {
    forall w, i | w in snapshot && 0 <= i < k && FailsCount(w, g, row, g[i])
      ensures !FailsCount(w, g, row, g[k])
    {
      EarlierFailureRemoved(snapshot, current, g, row, k, w, i);
      assert w !in WrongCount(snapshot, g, g[k]);
    }
    if FailsTwiceFrom(snapshot, g, row, k) {
      var w, i, j :| && w in snapshot && 0 <= i < j < WordLength && k <= j && g[j] !in g[..j] && g[i] != g[j]
                     && FailsCount(w, g, row, g[i]) && FailsCount(w, g, row, g[j]);
      assert j != k;
    }
  }

  /** A word failing the test of a letter before position `k` is no longer in the live list. */
  lemma EarlierFailureRemoved(snapshot: seq<Word>, current: seq<Word>, g: Word, row: Row, k: nat, w: Word, i: nat)
    requires k < WordLength && 0 <= i < k
    requires forall v :: v in current <==> v in snapshot && CountsUpTo(v, g, row, k)
    requires FailsCount(w, g, row, g[i])
    ensures w !in current
  {
    assert g[i] == g[..k][i];
    assert !CountsUpTo(w, g, row, k);
  }

  /** From position `k` on, the pass crashes exactly when a later letter re-removes a word. */
  lemma {:induction false} CountPassFromCrash(snapshot: seq<Word>, current: seq<Word>, g: Word, row: Row, k: nat)
    requires k <= WordLength
    requires Distinct(snapshot) && Embeds(current, snapshot)
    requires forall w :: w in current <==> w in snapshot && CountsUpTo(w, g, row, k)
    ensures CountPassFrom(snapshot, current, g, row, k).Err? <==> FailsTwiceFrom(snapshot, g, row, k)
    decreases WordLength - k
  {
    if k < WordLength {
      var c := g[k];
      if c in g[..k] || Count(g, c) <= 1 || StatusesOf(g, row, c) !in CountPatterns {
        SkipLetter(snapshot, current, g, row, k);
        CountPassFromCrash(snapshot, current, g, row, k + 1);
        FailsTwiceSkip(snapshot, g, row, k);
      } else {
        var ws := WrongCount(snapshot, g, c);
        EmbedsDistinct(current, snapshot);
        EmbedsDistinct(ws, snapshot);
        RemoveEachSpec(current, ws);
        var r := RemoveEach(current, ws);
        if r.Err? {
          var w :| w in ws && w !in current;
          FailsTwiceAt(snapshot, current, g, row, k, w);
        } else {
          RemoveLetter(snapshot, current, g, row, k);
          CountPassFromCrash(snapshot, r.value, g, row, k + 1);
          FailsTwiceNotAt(snapshot, current, g, row, k);
        }
      }
    }
  }

  /**
   * Over a duplicate-free pool, the count pass as written raises `ValueError`
   * exactly when some word fails the count tests of two different letters.
   */
  lemma CrashIffTwoFailedLetters(pool: seq<Word>, g: Word, row: Row)
    requires Distinct(pool)
    ensures CountPassAsWritten(pool, g, row).Err? <==> FailsTwoLetters(pool, g, row)
  {
    EmbedsSelf(pool);
    assert g[..0] == [];
    CountPassFromCrash(pool, pool, g, row, 0);
    if FailsTwoLetters(pool, g, row) {
      var w, c, d :| w in pool && c != d && FailsCount(w, g, row, c) && FailsCount(w, g, row, d);
      var p := FirstAt(g, c);
      var q := FirstAt(g, d);
      if p < q {
        assert FailsCount(w, g, row, g[p]) && FailsCount(w, g, row, g[q]);
      } else {
        assert FailsCount(w, g, row, g[q]) && FailsCount(w, g, row, g[p]);
      }
    }
  }

  /** A word meeting each tile of the row [yellow, green, grey, yellow, green] passes every position test. */
  lemma PassesPresentCorrectRow(w: Word, g: Word, row: Row, rules: Rules)
    requires row == [Present, Correct, Absent, Present, Correct]
    requires g[0] in w && w[0] != g[0] && w[1] == g[1] && g[2] !in w
    requires g[3] in w && w[3] != g[3] && w[4] == g[4]
    ensures PositionPass([w], g, row, rules, 0) == Filtered([w])
  {
    assert w[2] != g[2];
    PositionPassKeepsAll([w], g, row, rules, 0);
  }

  /** "pearl" passes every position test of guess "level" under the row used below. */
  lemma PearlPassesPositions()
    ensures PositionPass([Pearl], Level, LevelRow, ArchiveRules, 0) == Filtered([Pearl])
  {
    assert Pearl[4] == 'l' && Pearl[1] == 'e';
    assert Level[0] == 'l' && Level[1] == 'e' && Level[2] == 'v' && Level[3] == 'e' && Level[4] == 'l';
    assert 'v' !in Pearl;
    PassesPresentCorrectRow(Pearl, Level, LevelRow, ArchiveRules);
  }

  lemma LevelCounts()
    ensures Count("level", 'l') == 2 && Count("level", 'e') == 2
  {
    assert multiset("level") == multiset{'l', 'e', 'v', 'e', 'l'};
  }

  lemma PearlCounts()
    ensures Count("pearl", 'l') == 1 && Count("pearl", 'e') == 1
  {
    assert multiset("pearl") == multiset{'p', 'e', 'a', 'r', 'l'};
  }

  lemma LevelStatusesL()
    ensures StatusesOf("level", [Present, Correct, Absent, Present, Correct], 'l') == [Present, Correct]
  {
    assert StatusesOf("l", [Correct], 'l') == [Correct];
    assert StatusesOf("el", [Present, Correct], 'l') == [Correct];
    assert StatusesOf("vel", [Absent, Present, Correct], 'l') == [Correct];
    assert StatusesOf("evel", [Correct, Absent, Present, Correct], 'l') == [Correct];
  }

  lemma LevelStatusesE()
    ensures StatusesOf("level", [Present, Correct, Absent, Present, Correct], 'e') == [Correct, Present]
  {
    assert StatusesOf("l", [Correct], 'e') == [];
    assert StatusesOf("el", [Present, Correct], 'e') == [Present];
    assert StatusesOf("vel", [Absent, Present, Correct], 'e') == [Present];
    assert StatusesOf("evel", [Correct, Absent, Present, Correct], 'e') == [Correct, Present];
  }

  const Level: Word := "level"
  const Pearl: Word := "pearl"
  const LevelRow: Row := [Present, Correct, Absent, Present, Correct]

  lemma PearlHasWrongCounts()
    ensures WrongCount([Pearl], Level, 'l') == [Pearl]
    ensures WrongCount([Pearl], Level, 'e') == [Pearl]
  {
    LevelCounts();
    PearlCounts();
  }

  lemma LevelLettersMatch()
    ensures Count(Level, 'l') > 1 && StatusesOf(Level, LevelRow, 'l') in CountPatterns
    ensures Count(Level, 'e') > 1 && StatusesOf(Level, LevelRow, 'e') in CountPatterns
  {
    LevelCounts();
    LevelStatusesL();
    LevelStatusesE();
  }

  /** A matched letter at `k` whose removals all succeed hands the shrunk live list to the next letter. */
  lemma MatchedLetterRemoves(snapshot: seq<Word>, current: seq<Word>, g: Word, row: Row, k: nat, next: seq<Word>)
    requires k < WordLength
    requires g[k] !in g[..k] && Count(g, g[k]) > 1 && StatusesOf(g, row, g[k]) in CountPatterns
    requires RemoveEach(current, WrongCount(snapshot, g, g[k])) == Ok(next)
    ensures CountPassFrom(snapshot, current, g, row, k) == CountPassFrom(snapshot, next, g, row, k + 1)
  {
  }

  /** Removing the only word of a list leaves it empty. */
  lemma RemoveOnly(w: Word)
    ensures RemoveEach([w], [w]) == Ok([])
  {
    assert RemoveFirst([w], w) == [];
    assert [w][1..] == [];
  }

  /** The l test removes "pearl" from the live list. */
  lemma LevelFirstLetter()
    ensures CountPassFrom([Pearl], [Pearl], Level, LevelRow, 0) == CountPassFrom([Pearl], [], Level, LevelRow, 1)
  {
    LevelLettersMatch();
    PearlHasWrongCounts();
    assert Level[0] == 'l' && Level[..0] == [];
    RemoveOnly(Pearl);
    MatchedLetterRemoves([Pearl], [Pearl], Level, LevelRow, 0, []);
  }

  /** A matched letter at `k` whose removal list names a word no longer in the live list crashes. */
  lemma MatchedLetterCrashes(snapshot: seq<Word>, current: seq<Word>, g: Word, row: Row, k: nat, w: Word)
    requires k < WordLength
    requires g[k] !in g[..k] && Count(g, g[k]) > 1 && StatusesOf(g, row, g[k]) in CountPatterns
    requires WrongCount(snapshot, g, g[k]) == [w] && w !in current
    ensures CountPassFrom(snapshot, current, g, row, k) == Err(RemovedTwice(w))
  {
    assert RemoveEach(current, [w]) == Err(RemovedTwice(w));
  }

  lemma LevelSecondLetterMatches()
    ensures Level[1] !in Level[..1] && Count(Level, Level[1]) > 1 && StatusesOf(Level, LevelRow, Level[1]) in CountPatterns
    ensures WrongCount([Pearl], Level, Level[1]) == [Pearl]
  {
    assert Level[1] == 'e';
    assert Level[..1] == ['l'];
    LevelLettersMatch();
    PearlHasWrongCounts();
  }

  /** The e test tries to remove "pearl" again. */
  lemma LevelSecondLetter()
    ensures CountPassFrom([Pearl], [], Level, LevelRow, 1) == Err(RemovedTwice(Pearl))
  {
    LevelSecondLetterMatches();
    MatchedLetterCrashes([Pearl], [], Level, LevelRow, 1, Pearl);
  }

  /**
   * The crash, on a concrete row: guess "level" with l = [Present, Correct] and
   * e = [Correct, Present]. "pearl" passes every position test and has one l and
   * one e, so both letters try to remove it and the second removal fails.
   */
  lemma LevelPearlCrash()
    ensures EliminateAsWritten(["pearl"], "level", [Present, Correct, Absent, Present, Correct], ArchiveRules)
            == Err(RemovedTwice("pearl"))
  {
    PearlPassesPositions();
    LevelFirstLetter();
    LevelSecondLetter();
  }
}

=== FILE: elimination.dfy ===
/**
 * The candidate-elimination half of `solve_row`: given the previous guess and its
 * row of statuses, drop from the pool every word the row rules out.
 *
 * `solve_row` scans the positions left to right; at each position it removes from
 * the live list every word of a fresh snapshot that fails that position's test,
 * so each position is an order-preserving filter. An "other" status ends the
 * script at that position, after the earlier positions' removals. Then, for each
 * letter repeated in the guess whose status list is one of `CountPatterns`, every
 * word whose count of that letter differs from the guess's is removed.
 *
 * The two scripts differ in one branch, selected by `Rules.clearAllAbsent`: the
 * archive solver also removes every word containing a repeated letter whose tiles
 * are all absent; the automated solver does not. `Rules.countRule` selects the
 * count test: `ExactCount` is the scripts' own; `AtLeastCount` is the sound variant
 * (see the `Feedback` module).
 */
module Elimination {
  import opened Words
  import opened Statuses
  import opened Seqs

  datatype CountRule = ExactCount | AtLeastCount

  datatype Rules = Rules(clearAllAbsent: bool, countRule: CountRule)

  /** wordle_archive_solver.py */
  const ArchiveRules := Rules(true, ExactCount)

  /** wordle_solve_automated.py */
  const AutomatedRules := Rules(false, ExactCount)

  /**
   * Word `w` is not removed by the test of position `i` (the removal condition of
   * `solve_row`, negated). Its contract states the test in the terms of `Admits`:
   * a grey tile always excludes the letter at that position, and excludes it
   * everywhere when the guess holds it once or, for the archive solver, when all
   * its tiles are grey.
   */
  function KeepAt(w: Word, g: Word, row: Row, rules: Rules, i: nat): (keep: bool)
    requires i < WordLength
    ensures row[i] == Other ==> keep
    ensures row[i] != Other ==>
              (keep <==> && (row[i] == Correct ==> w[i] == g[i])
                         && (row[i] == Present ==> g[i] in w && w[i] != g[i])
                         && (row[i] == Absent ==> w[i] != g[i])
                         && (row[i] == Absent && Count(g, g[i]) == 1 ==> g[i] !in w)
                         && (rules.clearAllAbsent && row[i] == Absent && OnlyStatus(StatusesOf(g, row, g[i]), Absent) ==>
                               g[i] !in w))
  {
    assert g[i] in multiset(g);
    var c := g[i];
    match row[i]
    case Correct => w[i] == c
    case Present => c in w && w[i] != c
    case Absent =>
      if c in w && Count(g, c) == 1 then false
      else if rules.clearAllAbsent && c in w && Count(g, c) > 1 && OnlyStatus(StatusesOf(g, row, c), Absent) then false
      else w[i] != c
    case Other => true
  }

  /** Result of the elimination: a narrowed pool, or the position of an "other" tile and the pool at that moment. */
  datatype Pass = Filtered(pool: seq<Word>) | Stopped(index: nat, pool: seq<Word>)

  /** The positions whose tests were applied. */
  function Reach(p: Pass): nat {
    if p.Filtered? then WordLength else p.index
  }

  /**
   * Positions `i..` of the per-position pass. The sequence of filters keeps
   * exactly the words passing every applied test, whatever their order.
   */
  function PositionPass(pool: seq<Word>, g: Word, row: Row, rules: Rules, i: nat): (r: Pass)
    requires i <= WordLength
    decreases WordLength - i
    ensures Embeds(r.pool, pool)
    ensures r.Filtered? <==> forall j | i <= j < WordLength :: row[j] != Other
    ensures r.Stopped? ==> i <= r.index < WordLength && row[r.index] == Other
    ensures r.Stopped? ==> forall j | i <= j < r.index :: row[j] != Other
    ensures forall w | w in r.pool :: w in pool && forall j | i <= j < Reach(r) :: KeepAt(w, g, row, rules, j)
    ensures forall w | w in pool && (forall j | i <= j < Reach(r) :: KeepAt(w, g, row, rules, j)) :: w in r.pool
  {
    if i == WordLength then
      EmbedsSelf(pool);
      Filtered(pool)
    else if row[i] == Other then
      EmbedsSelf(pool);
      Stopped(i, pool)
    else
      var next := Filter(pool, w => KeepAt(w, g, row, rules, i));
      var r := PositionPass(next, g, row, rules, i + 1);
      EmbedsTransitive(r.pool, next, pool);
      r
  }

  /** Word `w` passes the tests of positions `i` up to `n`. */
  predicate PassesFrom(w: Word, g: Word, row: Row, rules: Rules, i: nat, n: nat)
    requires i <= n <= WordLength
  {
    forall j | i <= j < n :: KeepAt(w, g, row, rules, j)
  }

  /**
   * How many copies the per-position pass keeps: every copy of a word passing
   * the applied tests, and none of any other word.
   */
  lemma {:induction false} PositionPassCopies(pool: seq<Word>, g: Word, row: Row, rules: Rules, i: nat)
    requires i <= WordLength
    decreases WordLength - i
    ensures forall w | w in pool ::
              multiset(PositionPass(pool, g, row, rules, i).pool)[w]
                == if PassesFrom(w, g, row, rules, i, Reach(PositionPass(pool, g, row, rules, i))) then multiset(pool)[w] else 0
  {
    if i < WordLength && row[i] != Other {
      var next := Filter(pool, w => KeepAt(w, g, row, rules, i));
      PositionPassCopies(next, g, row, rules, i + 1);
      var r := PositionPass(next, g, row, rules, i + 1);
      PassesFromStep(pool, next, r.pool, g, row, rules, i, Reach(r));
    }
  }

  /** The copies kept by one more position test, in front of the later ones. */
  lemma PassesFromStep(pool: seq<Word>, next: seq<Word>, rest: seq<Word>, g: Word, row: Row, rules: Rules, i: nat, n: nat)
    requires i < n <= WordLength
    requires forall w | w in pool :: multiset(next)[w] == if KeepAt(w, g, row, rules, i) then multiset(pool)[w] else 0
    requires forall w | w in next :: multiset(rest)[w] == if PassesFrom(w, g, row, rules, i + 1, n) then multiset(next)[w] else 0
    requires forall w | w in rest :: w in next
    requires forall w | w in next :: w in pool
    ensures forall w | w in pool :: multiset(rest)[w] == if PassesFrom(w, g, row, rules, i, n) then multiset(pool)[w] else 0
  {
    forall w | w in pool
      ensures multiset(rest)[w] == if PassesFrom(w, g, row, rules, i, n) then multiset(pool)[w] else 0
    {
      assert PassesFrom(w, g, row, rules, i, n) <==> KeepAt(w, g, row, rules, i) && PassesFrom(w, g, row, rules, i + 1, n);
      if w !in next {
        assert multiset(next)[w] == 0;
        if w in rest {
          assert false;
        }
        assert multiset(rest)[w] == 0;
      }
    }
  }

  /** The exact-count condition for one word (or the at-least variant). */
  predicate CountOk(w: Word, g: Word, row: Row, rule: CountRule) {
    forall c | c in g && Count(g, c) > 1 && StatusesOf(g, row, c) in CountPatterns ::
      match rule
      case ExactCount => Count(w, c) == Count(g, c)
      case AtLeastCount => Count(w, c) >= Count(g, c)
  }

  /**
   * The exact-count pass as a filter of the pool left by the per-position pass.
   * Under `ExactCount`, every survivor holds each pattern-matched letter exactly as
   * often as the guess; letters whose status lists match no pattern add no test.
   */
  function CountFilter(pool: seq<Word>, g: Word, row: Row, rule: CountRule): (r: seq<Word>)
    ensures Embeds(r, pool)
    ensures forall w | w in r :: w in pool
    ensures forall w, c | w in r && c in g && Count(g, c) > 1 && StatusesOf(g, row, c) in CountPatterns ::
              if rule == ExactCount then Count(w, c) == Count(g, c) else Count(w, c) >= Count(g, c)
    ensures forall w | w in pool && CountOk(w, g, row, rule) :: w in r
    ensures forall w {:trigger multiset(r)[w]} | w in pool :: multiset(r)[w] == if CountOk(w, g, row, rule) then multiset(pool)[w] else 0
    ensures (forall c | c in g :: StatusesOf(g, row, c) !in CountPatterns) ==> r == pool
  {
    var r := Filter(pool, w => CountOk(w, g, row, rule));
    if forall c | c in g :: StatusesOf(g, row, c) !in CountPatterns then
      FilterKeepsAll(pool, w => CountOk(w, g, row, rule));
      r
    else
      r
  }

  /** One row's elimination: the per-position pass, then (unless stopped) the exact-count pass. */
  function Eliminate(pool: seq<Word>, g: Word, row: Row, rules: Rules): (r: Pass)
    ensures Embeds(r.pool, pool)
    ensures |r.pool| <= |pool|
    ensures r.Stopped? <==> Other in row
    ensures r.Stopped? ==> r.index < WordLength && row[r.index] == Other
    ensures r.Stopped? ==> forall j | 0 <= j < r.index :: row[j] != Other
  {
    var p := PositionPass(pool, g, row, rules, 0);
    if p.Stopped? then
      EmbedsMembers(p.pool, pool);
      p
    else
      var q := CountFilter(p.pool, g, row, rules.countRule);
      EmbedsTransitive(q, p.pool, pool);
      EmbedsMembers(q, pool);
      Filtered(q)
  }

  /**
   * What a row says about a word, position by position, independent of the order
   * in which `solve_row` applies its tests.
   */
  predicate Admits(w: Word, g: Word, row: Row, rules: Rules) {
    && (forall i | 0 <= i < WordLength && row[i] == Correct :: w[i] == g[i])
    && (forall i | 0 <= i < WordLength && row[i] == Present :: g[i] in w && w[i] != g[i])
    && (forall i | 0 <= i < WordLength && row[i] == Absent :: w[i] != g[i])
    && (forall i | 0 <= i < WordLength && row[i] == Absent && Count(g, g[i]) == 1 :: g[i] !in w)
    && (rules.clearAllAbsent ==>
          forall i | 0 <= i < WordLength && row[i] == Absent && OnlyStatus(StatusesOf(g, row, g[i]), Absent) ::
            g[i] !in w)
    && CountOk(w, g, row, rules.countRule)
  }

  lemma KeepAllIffAdmits(w: Word, g: Word, row: Row, rules: Rules)
    requires Other !in row
    ensures (forall j | 0 <= j < WordLength :: KeepAt(w, g, row, rules, j)) && CountOk(w, g, row, rules.countRule)
            <==> Admits(w, g, row, rules)
  {
    forall i | 0 <= i < WordLength
      ensures KeepAt(w, g, row, rules, i) <==>
              && (row[i] == Correct ==> w[i] == g[i])
              && (row[i] == Present ==> g[i] in w && w[i] != g[i])
              && (row[i] == Absent ==> w[i] != g[i])
              && (row[i] == Absent && Count(g, g[i]) == 1 ==> g[i] !in w)
              && (rules.clearAllAbsent && row[i] == Absent && OnlyStatus(StatusesOf(g, row, g[i]), Absent) ==> g[i] !in w)
    {
      assert g[i] in multiset(g);
      assert row[i] != Other;
    }
  }

  /**
   * A row without "other" tiles keeps exactly the pool words it admits, in pool
   * order: this is what `solve_row`'s removals amount to.
   */
  lemma EliminateKeepsAdmitted(pool: seq<Word>, g: Word, row: Row, rules: Rules)
    requires Other !in row
    ensures Eliminate(pool, g, row, rules).Filtered?
    ensures forall w | w in Eliminate(pool, g, row, rules).pool :: w in pool && Admits(w, g, row, rules)
    ensures forall w | w in pool && Admits(w, g, row, rules) :: w in Eliminate(pool, g, row, rules).pool
  {
    var p := PositionPass(pool, g, row, rules, 0);
    var e := Eliminate(pool, g, row, rules);
    forall w | w in e.pool
      ensures w in pool && Admits(w, g, row, rules)
    {
      KeepAllIffAdmits(w, g, row, rules);
    }
    forall w | w in pool && Admits(w, g, row, rules)
      ensures w in e.pool
    {
      KeepAllIffAdmits(w, g, row, rules);
    }
  }

  /** A green tile at `i` leaves only words with the guessed letter at `i`. */
  lemma SurvivorsMatchCorrect(pool: seq<Word>, g: Word, row: Row, rules: Rules)
    requires Other !in row
    ensures forall w, i | w in Eliminate(pool, g, row, rules).pool && 0 <= i < WordLength && row[i] == Correct ::
              w[i] == g[i]
  {
    EliminateKeepsAdmitted(pool, g, row, rules);
  }

  /** A yellow tile at `i` leaves only words containing the letter, but not at `i`. */
  lemma SurvivorsHonourPresent(pool: seq<Word>, g: Word, row: Row, rules: Rules)
    requires Other !in row
    ensures forall w, i | w in Eliminate(pool, g, row, rules).pool && 0 <= i < WordLength && row[i] == Present ::
              g[i] in w && w[i] != g[i]
  {
    EliminateKeepsAdmitted(pool, g, row, rules);
  }

  /** A grey tile on a letter the guess holds once leaves no word containing it. */
  lemma SurvivorsLackSingleAbsent(pool: seq<Word>, g: Word, row: Row, rules: Rules)
    requires Other !in row
    ensures forall w, i | w in Eliminate(pool, g, row, rules).pool && 0 <= i < WordLength && row[i] == Absent && Count(g, g[i]) == 1 ::
              g[i] !in w
  {
    EliminateKeepsAdmitted(pool, g, row, rules);
  }

  /**
   * Archive solver: a repeated letter whose tiles are all grey is gone from
   * every survivor.
   */
  lemma ArchiveClearsAllAbsentLetter(pool: seq<Word>, g: Word, row: Row)
    requires Other !in row
    ensures forall w, i | w in Eliminate(pool, g, row, ArchiveRules).pool && 0 <= i < WordLength && row[i] == Absent
                          && OnlyStatus(StatusesOf(g, row, g[i]), Absent) ::
              g[i] !in w
  {
    EliminateKeepsAdmitted(pool, g, row, ArchiveRules);
  }

  /**
   * A grey tile on a repeated letter, when the archive's extra branch does not
   * apply (mixed statuses, or the automated solver), removes exactly the words
   * holding that letter at that position: a word whose other tests pass and
   * whose letter at `i` differs survives, even if it holds the letter elsewhere.
   */
  lemma RepeatedAbsentRemovesOnlyThatPosition(pool: seq<Word>, g: Word, row: Row, rules: Rules, i: nat)
    requires Other !in row && i < WordLength && row[i] == Absent && Count(g, g[i]) > 1
    requires !rules.clearAllAbsent || !OnlyStatus(StatusesOf(g, row, g[i]), Absent)
    ensures forall w | w in Eliminate(pool, g, row, rules).pool :: w[i] != g[i]
    ensures forall w | w in pool && w[i] != g[i] && CountOk(w, g, row, rules.countRule)
                       && (forall j | 0 <= j < WordLength && j != i :: KeepAt(w, g, row, rules, j)) ::
              w in Eliminate(pool, g, row, rules).pool
  {
    EliminateKeepsAdmitted(pool, g, row, rules);
    var p := PositionPass(pool, g, row, rules, 0);
    forall w | w in pool && w[i] != g[i] && CountOk(w, g, row, rules.countRule)
               && (forall j | 0 <= j < WordLength && j != i :: KeepAt(w, g, row, rules, j))
      ensures w in Eliminate(pool, g, row, rules).pool
    {
      assert KeepAt(w, g, row, rules, i);
      assert forall j | 0 <= j < WordLength :: KeepAt(w, g, row, rules, j);
      assert w in p.pool;
    }
  }

  /**
   * Exact-count pass: when a repeated letter's status list is one of the six
   * patterns, every survivor holds that letter exactly as often as the guess.
   */
  lemma SurvivorsHaveExactCount(pool: seq<Word>, g: Word, row: Row, rules: Rules)
    requires Other !in row && rules.countRule == ExactCount
    ensures forall w, c | w in Eliminate(pool, g, row, rules).pool && c in g && Count(g, c) > 1
                          && StatusesOf(g, row, c) in CountPatterns ::
              Count(w, c) == Count(g, c)
  {
    EliminateKeepsAdmitted(pool, g, row, rules);
  }

  /**
   * An "other" tile: elimination stops at the first one, and the pool then holds
   * exactly the words passing the tests of the positions before it.
   */
  lemma StopsAtFirstOther(pool: seq<Word>, g: Word, row: Row, rules: Rules)
    requires Other in row
    ensures Eliminate(pool, g, row, rules).Stopped?
    ensures var e := Eliminate(pool, g, row, rules);
            && row[e.index] == Other && (forall j | 0 <= j < e.index :: row[j] != Other)
            && (forall w | w in e.pool :: w in pool && forall j | 0 <= j < e.index :: KeepAt(w, g, row, rules, j))
            && (forall w | w in pool && (forall j | 0 <= j < e.index :: KeepAt(w, g, row, rules, j)) :: w in e.pool)
  {
  }

  lemma {:induction false} PositionPassKeepsAll(pool: seq<Word>, g: Word, row: Row, rules: Rules, i: nat)
    requires i <= WordLength
    requires forall j | i <= j < WordLength :: row[j] != Other
    requires forall w, j | w in pool && i <= j < WordLength :: KeepAt(w, g, row, rules, j)
    ensures PositionPass(pool, g, row, rules, i) == Filtered(pool)
    decreases WordLength - i
  {
    if i < WordLength {
      FilterKeepsAll(pool, w => KeepAt(w, g, row, rules, i));
      PositionPassKeepsAll(pool, g, row, rules, i + 1);
    }
  }

  /** Applying the same row again to the narrowed pool removes nothing further. */
  lemma EliminateIdempotent(pool: seq<Word>, g: Word, row: Row, rules: Rules)
    requires Other !in row
    ensures var e := Eliminate(pool, g, row, rules);
            Eliminate(e.pool, g, row, rules) == e
  {
    var e := Eliminate(pool, g, row, rules);
    EliminateKeepsAdmitted(pool, g, row, rules);
    forall w | w in e.pool
      ensures (forall j | 0 <= j < WordLength :: KeepAt(w, g, row, rules, j)) && CountOk(w, g, row, rules.countRule)
    {
      KeepAllIffAdmits(w, g, row, rules);
    }
    PositionPassKeepsAll(e.pool, g, row, rules, 0);
    FilterKeepsAll(e.pool, w => CountOk(w, g, row, rules.countRule));
  }

  /** A row that is neither all green nor holds "other" eliminates the guess itself. */
  lemma GuessEliminated(pool: seq<Word>, g: Word, row: Row, rules: Rules)
    requires Other !in row && !SolutionFound(row)
    ensures g !in Eliminate(pool, g, row, rules).pool
  {
    var i :| 0 <= i < WordLength && row[i] != Correct;
    assert !KeepAt(g, g, row, rules, i);
  }

  /** No guess is consistent with its own row unless the row is all green. */
  lemma NotSelfAdmitted(g: Word, row: Row, rules: Rules)
    requires Other !in row && !SolutionFound(row)
    ensures !Admits(g, g, row, rules)
  {
    var i :| 0 <= i < WordLength && row[i] != Correct;
    assert row[i] == Present || row[i] == Absent;
  }

  const Geese: Word := "geese"
  const Early: Word := "early"
  const AllAbsent: Row := [Absent, Absent, Absent, Absent, Absent]

  lemma GeeseCounts()
    ensures Count(Geese, 'g') == 1 && Count(Geese, 'e') == 3 && Count(Geese, 's') == 1
  {
    assert multiset(Geese) == multiset{'g', 'e', 'e', 's', 'e'};
  }

  lemma EarlyLetters()
    ensures 'g' !in Early && 's' !in Early && 'e' in Early
    ensures Early[0] != 'g' && Early[1] != 'e' && Early[2] != 'e' && Early[3] != 's' && Early[4] != 'e'
  {
    assert Early == ['e'] + ['a'] + ['r'] + ['l'] + ['y'];
  }

  /** No status list of an all-grey row is a count pattern. */
  lemma AllAbsentMatchesNoPattern(g: Word)
    ensures forall c | c in g :: StatusesOf(g, AllAbsent, c) !in CountPatterns
  {
    forall c | c in g
      ensures StatusesOf(g, AllAbsent, c) !in CountPatterns
    {
      var i :| 0 <= i < |g| && g[i] == c;
      assert AllAbsent[i] == Absent;
      assert Absent in StatusesOf(g, AllAbsent, c);
    }
  }

  lemma AutomatedKeepsEarly()
    ensures Admits(Early, Geese, AllAbsent, AutomatedRules)
  {
    GeeseCounts();
    EarlyLetters();
    AllAbsentMatchesNoPattern(Geese);
    assert forall i | 0 <= i < WordLength :: Geese[i] == 'g' || Geese[i] == 'e' || Geese[i] == 's';
  }

  /** Archive solver: a word holding a repeated letter whose tiles are all grey is not admitted. */
  lemma AllAbsentLetterExcludes(w: Word, g: Word, row: Row, rules: Rules, i: nat)
    requires rules.clearAllAbsent && i < WordLength && row[i] == Absent
    requires OnlyStatus(StatusesOf(g, row, g[i]), Absent) && g[i] in w
    ensures !Admits(w, g, row, rules)
  {
  }

  /** Under an all-grey row, every letter of the guess has only grey tiles. */
  lemma AllAbsentStatuses(g: Word, c: char)
    requires c in g
    ensures OnlyStatus(StatusesOf(g, AllAbsent, c), Absent)
  {
    var ss := StatusesOf(g, AllAbsent, c);
    assert c in multiset(g);
    forall i | 0 <= i < |ss|
      ensures ss[i] == Absent
    {
      assert ss[i] in ss;
    }
  }

  lemma ArchiveDropsEarly()
    ensures !Admits(Early, Geese, AllAbsent, ArchiveRules)
  {
    EarlyLetters();
    assert Geese[1] == 'e';
    AllAbsentStatuses(Geese, 'e');
    AllAbsentLetterExcludes(Early, Geese, AllAbsent, ArchiveRules, 1);
  }

  /**
   * The two scripts disagree on an all-grey repeated letter: after guessing
   * "geese" with every tile grey, the automated solver keeps "early" (no e at
   * positions 1, 2 or 4) while the archive solver drops every word with an e.
   */
  lemma VariantsDisagreeOnAllAbsent()
    ensures Early in Eliminate([Early], Geese, AllAbsent, AutomatedRules).pool
    ensures Early !in Eliminate([Early], Geese, AllAbsent, ArchiveRules).pool
  {
    AutomatedKeepsEarly();
    ArchiveDropsEarly();
    EliminateKeepsAdmitted([Early], Geese, AllAbsent, AutomatedRules);
    EliminateKeepsAdmitted([Early], Geese, AllAbsent, ArchiveRules);
  }
}

=== FILE: feedback.dfy ===
/**
 * The game's side of a round, used to judge the solver: how Wordle colours a
 * guess against the hidden answer. Green for an exact match; otherwise yellow
 * while the answer still has unmatched copies of the letter left over after the
 * greens and the earlier yellows of that letter, grey once they run out.
 *
 * With this scoring the question "can elimination drop the answer?" has a
 * definite answer. Every position test of both scripts is sound. The exact-count
 * test is not: the guess "there" against the answer "eerie" colours the two e's
 * yellow and green, the test then demands exactly two e's, and "eerie" has three.
 * Requiring at least as many copies as the guess shows (`AtLeastCount`) is sound.
 */
module Feedback {
  import opened Words
  import opened Statuses
  import opened Seqs
  import opened Elimination

  /** Positions before `n` where the answer has `c` and the guess has something else. */
  function Unmatched(a: Word, g: Word, c: char, n: nat): nat
    requires n <= WordLength
  {
    if n == 0 then 0 else Unmatched(a, g, c, n - 1) + (if a[n - 1] == c && g[n - 1] != c then 1 else 0)
  }

  /** Positions before `n` where the guess has `c` and the answer has something else. */
  function Misses(a: Word, g: Word, c: char, n: nat): nat
    requires n <= WordLength
  {
    if n == 0 then 0 else Misses(a, g, c, n - 1) + (if g[n - 1] == c && a[n - 1] != c then 1 else 0)
  }

  /** Positions before `n` where both have `c`. */
  function Exact(a: Word, g: Word, c: char, n: nat): nat
    requires n <= WordLength
  {
    if n == 0 then 0 else Exact(a, g, c, n - 1) + (if a[n - 1] == c && g[n - 1] == c then 1 else 0)
  }

  /** Wordle's colouring of guess `g` against answer `a`. */
  function Score(a: Word, g: Word): (row: Row)
    ensures Other !in row
    ensures forall i | 0 <= i < WordLength :: row[i] == Correct <==> g[i] == a[i]
  {
    seq(WordLength, i requires 0 <= i < WordLength =>
      if g[i] == a[i] then Correct
      else if Unmatched(a, g, g[i], WordLength) > Misses(a, g, g[i], i) then Present
      else Absent)
  }

  /** Every copy of `c` in either word is an exact match, an unmatched answer copy or a missed guess copy. */
  lemma {:induction false} CountSplit(a: Word, g: Word, c: char, n: nat)
    requires n <= WordLength
    ensures Count(a[..n], c) == Exact(a, g, c, n) + Unmatched(a, g, c, n)
    ensures Count(g[..n], c) == Exact(a, g, c, n) + Misses(a, g, c, n)
  {
    if n > 0 {
      CountSplit(a, g, c, n - 1);
      assert a[..n] == a[..n - 1] + [a[n - 1]];
      assert g[..n] == g[..n - 1] + [g[n - 1]];
    }
  }

  lemma CountWhole(a: Word, g: Word, c: char)
    ensures Count(a, c) == Exact(a, g, c, WordLength) + Unmatched(a, g, c, WordLength)
    ensures Count(g, c) == Exact(a, g, c, WordLength) + Misses(a, g, c, WordLength)
  {
    CountSplit(a, g, c, WordLength);
    assert a[..WordLength] == a && g[..WordLength] == g;
  }

  /** No copy of `c` in the guess before `n`, so no miss either. */
  lemma {:induction false} NoMissesBefore(a: Word, g: Word, c: char, n: nat)
    requires n <= WordLength && c !in g[..n]
    ensures Misses(a, g, c, n) == 0
  {
    if n > 0 {
      assert g[n - 1] == g[..n][n - 1];
      assert g[..n - 1] == g[..n][..n - 1];
      NoMissesBefore(a, g, c, n - 1);
    }
  }

  /** If every missed copy of `c` is yellow, the answer's unmatched copies cover all the misses. */
  lemma {:induction false} MissesCovered(a: Word, g: Word, c: char, n: nat)
    requires n <= WordLength
    requires forall j | 0 <= j < n && g[j] == c && a[j] != c :: Unmatched(a, g, c, WordLength) > Misses(a, g, c, j)
    ensures Misses(a, g, c, n) <= Unmatched(a, g, c, WordLength)
  {
    if n > 0 {
      MissesCovered(a, g, c, n - 1);
    }
  }

  /** A grey tile at the first copy of `c` in the guess means the answer has no unmatched `c`. */
  lemma GreyFirstCopy(a: Word, g: Word, p: nat)
    requires p < WordLength && Score(a, g)[p] == Absent && g[p] !in g[..p]
    ensures Unmatched(a, g, g[p], WordLength) == 0
  {
    NoMissesBefore(a, g, g[p], p);
  }

  /** A position scored `Present` names a letter of the answer. */
  lemma PresentInAnswer(a: Word, g: Word, i: nat)
    requires i < WordLength && Score(a, g)[i] == Present
    ensures g[i] in a && a[i] != g[i]
  {
    CountWhole(a, g, g[i]);
    assert Count(a, g[i]) > 0;
  }

  /** A letter the guess holds once and that scores grey is not in the answer. */
  lemma SingleGreyAbsent(a: Word, g: Word, i: nat)
    requires i < WordLength && Score(a, g)[i] == Absent && Count(g, g[i]) == 1
    ensures g[i] !in a
  {
    var c := g[i];
    assert g == g[..i] + [c] + g[i + 1..];
    assert multiset(g)[c] == multiset(g[..i])[c] + 1 + multiset(g[i + 1..])[c];
    assert c !in g[..i];
    GreyFirstCopy(a, g, i);
    CountWhole(a, g, c);
    assert Misses(a, g, c, WordLength) >= 1 by {
      MissAt(a, g, c, i);
    }
    assert Count(a, c) == 0;
  }

  /** A missed copy of `c` at `i` makes at least one miss in the whole word. */
  lemma {:induction false} MissAt(a: Word, g: Word, c: char, i: nat)
    requires i < WordLength && g[i] == c && a[i] != c
    ensures Misses(a, g, c, WordLength) >= 1
  {
    MissesGrow(a, g, c, i + 1, WordLength);
  }

  lemma {:induction false} MissesGrow(a: Word, g: Word, c: char, m: nat, n: nat)
    requires m <= n <= WordLength
    ensures Misses(a, g, c, m) <= Misses(a, g, c, n)
    decreases n - m
  {
    if m < n {
      MissesGrow(a, g, c, m, n - 1);
    }
  }

  /** A letter whose every copy in the guess is grey is not in the answer. */
  lemma AllGreyAbsent(a: Word, g: Word, c: char)
    requires c in g
    requires forall j | 0 <= j < WordLength && g[j] == c :: Score(a, g)[j] == Absent
    ensures c !in a
  {
    var p := FirstAt(g, c);
    GreyFirstCopy(a, g, p);
    assert Exact(a, g, c, WordLength) == 0 by {
      ExactNone(a, g, c, WordLength);
    }
    CountWhole(a, g, c);
    assert Count(a, c) == 0;
  }

  lemma {:induction false} ExactNone(a: Word, g: Word, c: char, n: nat)
    requires n <= WordLength
    requires forall j | 0 <= j < n && g[j] == c :: a[j] != c
    ensures Exact(a, g, c, n) == 0
  {
    if n > 0 {
      ExactNone(a, g, c, n - 1);
    }
  }

  /**
   * A repeated letter whose tiles are all green or yellow occurs in the answer
   * at least as often as in the guess.
   */
  lemma AtLeastAsMany(a: Word, g: Word, c: char)
    requires forall j | 0 <= j < WordLength && g[j] == c :: Score(a, g)[j] != Absent
    ensures Count(a, c) >= Count(g, c)
  {
    MissesCovered(a, g, c, WordLength);
    CountWhole(a, g, c);
  }

  /**
   * Soundness of the corrected elimination: the answer satisfies everything its
   * own row says about it, for both scripts, once the count test asks for at
   * least as many copies.
   */
  lemma AnswerAdmitted(a: Word, g: Word, rules: Rules)
    requires rules.countRule == AtLeastCount
    ensures Admits(a, g, Score(a, g), rules)
  {
    var row := Score(a, g);
    forall i | 0 <= i < WordLength && row[i] == Present
      ensures g[i] in a && a[i] != g[i]
    {
      PresentInAnswer(a, g, i);
    }
    forall i | 0 <= i < WordLength && row[i] == Absent && Count(g, g[i]) == 1
      ensures g[i] !in a
    {
      SingleGreyAbsent(a, g, i);
    }
    forall i | 0 <= i < WordLength && row[i] == Absent && OnlyStatus(StatusesOf(g, row, g[i]), Absent)
      ensures g[i] !in a
    {
      var ss := StatusesOf(g, row, g[i]);
      assert forall j | 0 <= j < WordLength && g[j] == g[i] :: row[j] in ss;
      AllGreyAbsent(a, g, g[i]);
    }
    forall c | c in g && Count(g, c) > 1 && StatusesOf(g, row, c) in CountPatterns
      ensures Count(a, c) >= Count(g, c)
    {
      var ss := StatusesOf(g, row, c);
      PatternShape(ss);
      assert forall j | 0 <= j < WordLength && g[j] == c :: row[j] in ss;
      AtLeastAsMany(a, g, c);
    }
  }

  /** With the corrected count test, elimination never removes the answer. */
  lemma AnswerSurvives(pool: seq<Word>, a: Word, g: Word, rules: Rules)
    requires rules.countRule == AtLeastCount
    ensures var e := Eliminate(pool, g, Score(a, g), rules);
            e.Filtered? && (a in pool ==> a in e.pool)
  {
    AnswerAdmitted(a, g, rules);
    EliminateKeepsAdmitted(pool, g, Score(a, g), rules);
  }

  /** The row is all green exactly when the guess is the answer. */
  lemma SolvedIffAnswer(a: Word, g: Word)
    ensures SolutionFound(Score(a, g)) <==> g == a
  {
    if SolutionFound(Score(a, g)) {
      assert forall i | 0 <= i < WordLength :: g[i] == a[i];
    }
  }

  const There: Word := "there"
  const Eerie: Word := "eerie"
  const ThereRow: Row := [Absent, Absent, Present, Present, Correct]

  lemma EerieCounts()
    ensures Count(Eerie, 'e') == 3 && Count(Eerie, 't') == 0 && Count(Eerie, 'h') == 0 && Count(Eerie, 'r') == 1
  {
    assert multiset(Eerie) == multiset{'e', 'e', 'r', 'i', 'e'};
  }

  lemma ThereCounts()
    ensures Count(There, 'e') == 2 && Count(There, 't') == 1 && Count(There, 'h') == 1 && Count(There, 'r') == 1
  {
    assert multiset(There) == multiset{'t', 'h', 'e', 'r', 'e'};
  }

  lemma ThereStatusesE()
    ensures StatusesOf("there", [Absent, Absent, Present, Present, Correct], 'e') == [Present, Correct]
  {
    assert StatusesOf("e", [Correct], 'e') == [Correct];
    assert StatusesOf("re", [Present, Correct], 'e') == [Correct];
    assert StatusesOf("ere", [Present, Present, Correct], 'e') == [Present, Correct];
    assert StatusesOf("here", [Absent, Present, Present, Correct], 'e') == [Present, Correct];
  }

  /** Guess "there" against answer "eerie" is coloured grey, grey, yellow, yellow, green. */
  lemma ThereAgainstEerie()
    ensures Score(Eerie, There) == ThereRow
  {
    assert Unmatched(Eerie, There, 'e', WordLength) == 2;
    assert Unmatched(Eerie, There, 'r', WordLength) == 1;
    assert Unmatched(Eerie, There, 't', WordLength) == 0;
    assert Unmatched(Eerie, There, 'h', WordLength) == 0;
    assert Misses(Eerie, There, 'e', 2) == 0;
    assert Misses(Eerie, There, 'r', 3) == 0;
  }

  /**
   * The exact-count test eliminates the answer: with e = [Present, Correct] it
   * keeps only words with exactly two e's, and "eerie" has three.
   */
  lemma ExactCountDropsAnswer(clearAllAbsent: bool)
    ensures Score(Eerie, There) == ThereRow
    ensures !Admits(Eerie, There, ThereRow, Rules(clearAllAbsent, ExactCount))
    ensures Eerie !in Eliminate([Eerie], There, ThereRow, Rules(clearAllAbsent, ExactCount)).pool
  {
    ThereAgainstEerie();
    ThereCounts();
    EerieCounts();
    ThereStatusesE();
    assert 'e' in There && StatusesOf(There, ThereRow, 'e') in CountPatterns;
    assert !CountOk(Eerie, There, ThereRow, ExactCount);
    EliminateKeepsAdmitted([Eerie], There, ThereRow, Rules(clearAllAbsent, ExactCount));
  }
}

=== FILE: selection.dfy ===
/**
 * The second half of `solve_row`: after elimination, every surviving word is
 * looked up in the frequency table and the first word with the highest positive
 * frequency is recommended and removed from the live pool.
 *
 * `solve_row` keeps a running maximum that starts at 0 and is replaced only on a
 * strict `<`, so among equal frequencies the earliest word wins and a word with
 * frequency 0 or less is never chosen. A surviving word missing from the table
 * raises `KeyError` at that word; when no survivor scores above 0 the variable
 * `recommended_word` is never bound and the script fails. Both are outcomes here.
 */
module Selection {
  import opened Results
  import opened Words
  import opened Statuses
  import opened Seqs
  import opened Elimination

  /** The frequency table loaded from `words_json.txt`. */
  type Scores = map<string, real>

  /** How the scan over the survivors ends. */
  datatype Pick = Picked(index: nat) | NothingPositive | Unscored(index: nat)

  /** Every survivor before position `n` has a frequency. */
  predicate ScoredUpTo(pool: seq<Word>, freq: Scores, n: nat)
    requires n <= |pool|
  {
    forall j | 0 <= j < n :: pool[j] in freq
  }

  /**
   * The recommendation as a property: position `k` holds a positive frequency
   * that no survivor beats, and every earlier survivor scores strictly less.
   */
  predicate FirstMaximum(pool: seq<Word>, freq: Scores, k: nat)
    requires ScoredUpTo(pool, freq, |pool|)
  {
    && k < |pool|
    && freq[pool[k]] > 0.0
    && (forall j | 0 <= j < |pool| :: freq[pool[j]] <= freq[pool[k]])
    && (forall j | 0 <= j < k :: freq[pool[j]] < freq[pool[k]])
  }

  /**
   * The loop of `solve_row` from position `i`, with the running best index and
   * maximum. Its precondition is the loop invariant.
   */
  function PickFrom(pool: seq<Word>, freq: Scores, i: nat, best: Option<nat>, top: real): (r: Pick)
    requires i <= |pool| && ScoredUpTo(pool, freq, i)
    requires best.None? ==> top == 0.0 && forall j | 0 <= j < i :: freq[pool[j]] <= 0.0
    requires best.Some? ==> && best.value < i && top == freq[pool[best.value]] && top > 0.0
                            && (forall j | 0 <= j < i :: freq[pool[j]] <= top)
                            && (forall j | 0 <= j < best.value :: freq[pool[j]] < top)
    decreases |pool| - i
    ensures r.Unscored? <==> !ScoredUpTo(pool, freq, |pool|)
    ensures r.Unscored? ==> i <= r.index < |pool| && pool[r.index] !in freq && ScoredUpTo(pool, freq, r.index)
    ensures r.Picked? ==> ScoredUpTo(pool, freq, |pool|) && FirstMaximum(pool, freq, r.index)
    ensures r.NothingPositive? ==> ScoredUpTo(pool, freq, |pool|) && forall j | 0 <= j < |pool| :: freq[pool[j]] <= 0.0
  {
    if i == |pool| then
      if best.Some? then Picked(best.value) else NothingPositive
    else if pool[i] !in freq then
      Unscored(i)
    else if top < freq[pool[i]] then
      PickFrom(pool, freq, i + 1, Some(i), freq[pool[i]])
    else
      PickFrom(pool, freq, i + 1, best, top)
  }

  /** The whole scan, starting with no recommendation and a maximum of 0. */
  function PickBest(pool: seq<Word>, freq: Scores): (r: Pick)
    ensures r.Unscored? <==> !ScoredUpTo(pool, freq, |pool|)
    ensures r.Unscored? ==> r.index < |pool| && pool[r.index] !in freq && ScoredUpTo(pool, freq, r.index)
    ensures r.Picked? ==> ScoredUpTo(pool, freq, |pool|) && FirstMaximum(pool, freq, r.index)
    ensures r.NothingPositive? ==> ScoredUpTo(pool, freq, |pool|) && forall j | 0 <= j < |pool| :: freq[pool[j]] <= 0.0
  {
    PickFrom(pool, freq, 0, None, 0.0)
  }

  /** At most one position is the first maximum. */
  lemma FirstMaximumUnique(pool: seq<Word>, freq: Scores, k: nat, m: nat)
    requires ScoredUpTo(pool, freq, |pool|)
    requires FirstMaximum(pool, freq, k) && FirstMaximum(pool, freq, m)
    ensures k == m
  {
  }

  /**
   * The scan recommends position `k` exactly when every survivor is scored and
   * `k` is the first maximum.
   */
  lemma PickBestIsFirstMaximum(pool: seq<Word>, freq: Scores, k: nat)
    ensures PickBest(pool, freq) == Picked(k) <==> ScoredUpTo(pool, freq, |pool|) && FirstMaximum(pool, freq, k)
  {
    var r := PickBest(pool, freq);
    if ScoredUpTo(pool, freq, |pool|) && FirstMaximum(pool, freq, k) {
      FirstMaximumUnique(pool, freq, k, r.index);
    }
  }

  /** What one call of `solve_row` returns, or how it ends the script. */
  datatype Outcome =
    | Recommend(word: Word, pool: seq<Word>)
    | StatusOther(index: nat)
    | MissingScore(word: Word)
    | NoCandidate(pool: seq<Word>)

  /**
   * `solve_row`: eliminate, scan the survivors, and remove the recommended word
   * from the live pool. The recommendation is the first survivor of maximal
   * positive frequency; the new pool is the survivors less that one entry.
   */
  function SolveRow(pool: seq<Word>, g: Word, row: Row, freq: Scores, rules: Rules): (o: Outcome)
    ensures o.StatusOther? <==> Other in row
    ensures o.StatusOther? ==> o.index < WordLength && row[o.index] == Other
                               && forall j | 0 <= j < o.index :: row[j] != Other
    ensures o.Recommend? ==>
              var survivors := Eliminate(pool, g, row, rules).pool;
              && o.word in survivors && o.word in pool
              && ScoredUpTo(survivors, freq, |survivors|)
              && o.word in freq && freq[o.word] > 0.0
              && (forall w | w in survivors :: freq[w] <= freq[o.word])
              && (forall j | 0 <= j < |survivors| && freq[survivors[j]] == freq[o.word] :: o.word in survivors[..j + 1])
              && multiset(o.pool) + multiset{o.word} == multiset(survivors)
              && DropsFirst(o.pool, survivors, o.word)
              && Embeds(o.pool, pool)
    ensures o.MissingScore? ==>
              var survivors := Eliminate(pool, g, row, rules).pool;
              && o.word in survivors && o.word !in freq
              && exists k | 0 <= k < |survivors| && survivors[k] == o.word :: ScoredUpTo(survivors, freq, k)
    ensures o.NoCandidate? ==>
              && o.pool == Eliminate(pool, g, row, rules).pool
              && forall w | w in o.pool :: w in freq && freq[w] <= 0.0
  {
    var e := Eliminate(pool, g, row, rules);
    EmbedsMembers(e.pool, pool);
    if e.Stopped? then
      StatusOther(e.index)
    else
      match PickBest(e.pool, freq)
      case Unscored(k) => MissingScore(e.pool[k])
      case NothingPositive => NoCandidate(e.pool)
      case Picked(k) =>
        var w := e.pool[k];
        var rest := RemoveFirst(e.pool, w);
        EmbedsTransitive(rest, e.pool, pool);
        Recommend(w, rest)
  }

  /** A scan that got past every position leaves no unscored word. */
  lemma ScoredMembers(pool: seq<Word>, freq: Scores)
    requires ScoredUpTo(pool, freq, |pool|)
    ensures forall w | w in pool :: w in freq
  {
    forall w | w in pool
      ensures w in freq
    {
      var j :| 0 <= j < |pool| && pool[j] == w;
    }
  }

  /** A recommended word is consistent with the row it was chosen from. */
  lemma RecommendationAdmitted(pool: seq<Word>, g: Word, row: Row, freq: Scores, rules: Rules)
    ensures var o := SolveRow(pool, g, row, freq, rules);
            o.Recommend? ==> Admits(o.word, g, row, rules)
  {
    if Other !in row {
      EliminateKeepsAdmitted(pool, g, row, rules);
    }
  }

  /**
   * Over a duplicate-free pool the recommended word leaves the pool for good,
   * and the new pool is exactly the other survivors.
   */
  lemma RecommendationLeavesPool(pool: seq<Word>, g: Word, row: Row, freq: Scores, rules: Rules)
    requires Distinct(pool)
    ensures var o := SolveRow(pool, g, row, freq, rules);
            o.Recommend? ==>
              && Distinct(o.pool) && o.word !in o.pool
              && forall w :: w in o.pool <==> w in Eliminate(pool, g, row, rules).pool && w != o.word
  {
    var e := Eliminate(pool, g, row, rules);
    var o := SolveRow(pool, g, row, freq, rules);
    if o.Recommend? {
      EmbedsDistinct(e.pool, pool);
      RemoveFirstDistinct(e.pool, o.word);
    }
  }
}

=== FILE: seqs.dfy ===
/** Small failure-carrying datatypes shared by the whole model. */
module Results {

  datatype Option<T> = None | Some(value: T)

  /** Either a value or the error that ended the computation. */
  datatype Result<T, E> = Ok(value: T) | Err(error: E)
}

/**
 * Candidate pools are Python lists of words. The solver only ever shrinks them:
 * either by keeping the entries that pass a test (a snapshot is scanned and the
 * failing entries are removed from the live list) or by `list.remove`, which drops
 * the first occurrence of a value. This module gives both operations and the
 * order-preserving subsequence relation `Embeds` that relates a pool to its
 * predecessors.
 */
module Seqs {

  /** No value occurs twice. */
  predicate Distinct<T(==)>(s: seq<T>) {
    forall i, j | 0 <= i < j < |s| :: s[i] != s[j]
  }

  /** `a` is obtained from `s` by deleting entries, keeping the order of the rest. */
  predicate Embeds<T(==)>(a: seq<T>, s: seq<T>)
    decreases |s|
  {
    if |a| == 0 then true
    else if |s| == 0 then false
    else (a[0] == s[0] && Embeds(a[1..], s[1..])) || Embeds(a, s[1..])
  }

  /**
   * The entries of `s` that pass `keep`, in their original order: every copy of
   * a passing value stays and every copy of a failing one goes.
   */
  function Filter<T(==)>(s: seq<T>, keep: T -> bool): (r: seq<T>)
    ensures Embeds(r, s)
    ensures forall x | x in r :: x in s && keep(x)
    ensures forall x | x in s && keep(x) :: x in r
    ensures forall x {:trigger multiset(r)[x]} | x in s :: multiset(r)[x] == if keep(x) then multiset(s)[x] else 0
  {
    if |s| == 0 then []
    else
      assert s == [s[0]] + s[1..];
      if keep(s[0]) then [s[0]] + Filter(s[1..], keep)
      else Filter(s[1..], keep)
  }

  /** `r` is `s` with its first copy of `x` cut out. */
  predicate DropsFirst<T(==)>(r: seq<T>, s: seq<T>, x: T) {
    exists k | 0 <= k < |s| && s[k] == x && x !in s[..k] :: r == s[..k] + s[k + 1..]
  }

  /** Python's `list.remove(x)` when `x` is present: the first occurrence goes. */
  function RemoveFirst<T(==)>(s: seq<T>, x: T): (r: seq<T>)
    ensures Embeds(r, s)
    ensures x in s ==> multiset(r) + multiset{x} == multiset(s)
    ensures x in s ==> DropsFirst(r, s, x)
    ensures x !in s ==> r == s
  {
    if |s| == 0 then []
    else
      assert s == [s[0]] + s[1..];
      if s[0] == x then
        EmbedsSelf(s[1..]);
        assert s[..0] + s[1..] == s[1..];
        s[1..]
      else
        var t := RemoveFirst(s[1..], x);
        if x in s[1..] then DropsFirstCons(t, s, x); [s[0]] + t
        else [s[0]] + t
  }

  /** Cutting the first `x` out of the tail of a list that does not start with `x`. */
  lemma DropsFirstCons<T>(t: seq<T>, s: seq<T>, x: T)
    requires |s| > 0 && s[0] != x && DropsFirst(t, s[1..], x)
    ensures DropsFirst([s[0]] + t, s, x)
  {
    var k :| 0 <= k < |s[1..]| && s[1..][k] == x && x !in s[1..][..k] && t == s[1..][..k] + s[1..][k + 1..];
    assert s[..k + 1] == [s[0]] + s[1..][..k];
    assert s[k + 2..] == s[1..][k + 1..];
    assert s[k + 1] == x && x !in s[..k + 1];
    assert [s[0]] + t == s[..k + 1] + s[k + 2..];
  }

  lemma {:induction false} EmbedsSelf<T>(s: seq<T>)
    ensures Embeds(s, s)
    decreases |s|
  {
    if |s| > 0 {
      EmbedsSelf(s[1..]);
    }
  }

  lemma {:induction false} EmbedsMembers<T>(a: seq<T>, s: seq<T>)
    requires Embeds(a, s)
    ensures forall x | x in a :: x in s
    ensures |a| <= |s|
    decreases |s|
  {
    if |a| > 0 {
      if a[0] == s[0] && Embeds(a[1..], s[1..]) {
        EmbedsMembers(a[1..], s[1..]);
        forall x | x in a
          ensures x in s
        {
          if x != a[0] {
            assert x in a[1..];
          }
        }
      } else {
        EmbedsMembers(a, s[1..]);
      }
    }
  }

  lemma {:induction false} EmbedsTransitive<T>(a: seq<T>, b: seq<T>, c: seq<T>)
    requires Embeds(a, b) && Embeds(b, c)
    ensures Embeds(a, c)
    decreases |c|
  {
    if |a| > 0 {
      assert |b| > 0 && |c| > 0;
      if b[0] == c[0] && Embeds(b[1..], c[1..]) {
        if a[0] == b[0] && Embeds(a[1..], b[1..]) {
          EmbedsTransitive(a[1..], b[1..], c[1..]);
        } else {
          EmbedsTransitive(a, b[1..], c[1..]);
        }
      } else {
        EmbedsTransitive(a, b, c[1..]);
      }
    }
  }

  lemma {:induction false} EmbedsDistinct<T>(a: seq<T>, s: seq<T>)
    requires Embeds(a, s) && Distinct(s)
    ensures Distinct(a)
    decreases |s|
  {
    if |a| > 0 {
      assert Distinct(s[1..]) by {
        forall i, j | 0 <= i < j < |s[1..]|
          ensures s[1..][i] != s[1..][j]
        {
          assert s[1..][i] == s[i + 1] && s[1..][j] == s[j + 1];
        }
      }
      if a[0] == s[0] && Embeds(a[1..], s[1..]) {
        EmbedsDistinct(a[1..], s[1..]);
        EmbedsMembers(a[1..], s[1..]);
        assert s[0] !in s[1..] by {
          forall k | 0 <= k < |s[1..]|
            ensures s[1..][k] != s[0]
          {
            assert s[1..][k] == s[k + 1];
          }
        }
        forall i, j | 0 <= i < j < |a|
          ensures a[i] != a[j]
        {
          if i == 0 {
            assert a[j] == a[1..][j - 1];
          } else {
            assert a[i] == a[1..][i - 1] && a[j] == a[1..][j - 1];
          }
        }
      } else {
        EmbedsDistinct(a, s[1..]);
      }
    }
  }

  /**
   * Over a duplicate-free list, a subsequence is determined by its members: two
   * pools carved out of the same snapshot with the same members are equal.
   */
  lemma {:induction false} EmbedsUnique<T>(a: seq<T>, b: seq<T>, s: seq<T>)
    requires Distinct(s) && Embeds(a, s) && Embeds(b, s)
    requires forall x :: x in a <==> x in b
    ensures a == b
    decreases |s|
  {
    if |s| == 0 {
      return;
    }
    var t := s[1..];
    assert Distinct(t) by {
      forall i, j | 0 <= i < j < |t|
        ensures t[i] != t[j]
      {
        assert t[i] == s[i + 1] && t[j] == s[j + 1];
      }
    }
    assert s[0] !in t by {
      forall k | 0 <= k < |t|
        ensures t[k] != s[0]
      {
        assert t[k] == s[k + 1];
      }
    }
    if s[0] in a {
      assert s[0] in b;
      if Embeds(a, t) {
        EmbedsMembers(a, t);
      }
      if Embeds(b, t) {
        EmbedsMembers(b, t);
      }
      assert a[0] == s[0] && Embeds(a[1..], t);
      assert b[0] == s[0] && Embeds(b[1..], t);
      EmbedsMembers(a[1..], t);
      EmbedsMembers(b[1..], t);
      forall x
        ensures x in a[1..] <==> x in b[1..]
      {
        if x in a[1..] {
          assert x in a && x != s[0];
          assert x in b;
          assert x == b[0] || x in b[1..];
        }
        if x in b[1..] {
          assert x in b && x != s[0];
          assert x in a;
          assert x == a[0] || x in a[1..];
        }
      }
      EmbedsUnique(a[1..], b[1..], t);
      assert a == [a[0]] + a[1..] && b == [b[0]] + b[1..];
      calc {
        a;
        [a[0]] + a[1..];
        [b[0]] + b[1..];
        b;
      }
    } else {
      assert s[0] !in b;
      assert Embeds(a, t) && Embeds(b, t);
      EmbedsUnique(a, b, t);
    }
  }

  /** Keeping every entry leaves the list unchanged. */
  lemma {:induction false} FilterKeepsAll<T>(s: seq<T>, keep: T -> bool)
    requires forall x | x in s :: keep(x)
    ensures Filter(s, keep) == s
    decreases |s|
  {
    if |s| > 0 {
      FilterKeepsAll(s[1..], keep);
      assert s == [s[0]] + s[1..];
    }
  }

  lemma {:induction false} RemoveFirstDistinct<T>(s: seq<T>, x: T)
    requires Distinct(s)
    ensures Distinct(RemoveFirst(s, x))
    ensures x !in RemoveFirst(s, x)
    ensures forall y :: y in RemoveFirst(s, x) <==> y in s && y != x
  {
    var r := RemoveFirst(s, x);
    EmbedsDistinct(r, s);
    if x in s {
      assert multiset(r) + multiset{x} == multiset(s);
      assert multiset(s)[x] == 1 by {
        DistinctCount(s, x);
      }
      assert multiset(r)[x] == 0;
      forall y
        ensures y in r <==> y in s && y != x
      {
        assert y in r <==> y in multiset(r);
        assert y in s <==> y in multiset(s);
      }
    }
  }

  lemma {:induction false} DistinctCount<T>(s: seq<T>, x: T)
    requires Distinct(s)
    ensures multiset(s)[x] <= 1
    decreases |s|
  {
    if |s| > 0 {
      var t := s[1..];
      assert s == [s[0]] + t;
      assert Distinct(t) by {
        forall i, j | 0 <= i < j < |t|
          ensures t[i] != t[j]
        {
          assert t[i] == s[i + 1] && t[j] == s[j + 1];
        }
      }
      DistinctCount(t, x);
      if s[0] == x {
        assert x !in t by {
          forall k | 0 <= k < |t|
            ensures t[k] != x
          {
            assert t[k] == s[k + 1];
          }
        }
        assert multiset(t)[x] == 0;
      }
      assert multiset(s) == multiset{s[0]} + multiset(t);
    }
  }
}

=== FILE: session.dfy ===
/**
 * `main` of both scripts, without the browser: load the word lists, check the
 * start word, then play at most six rounds. The colours `find_bg` reads back
 * from the board are the parameter `observe`, a function of the word entered.
 *
 * Round 1 calls `solve_row` on the start word's row before asking
 * `solution_found`; rounds 2 to 6 ask `solution_found` first and call
 * `solve_row` only on an unsolved row. After round 6 the script gives up.
 */
module Session {
  import opened Results
  import opened Words
  import opened Statuses
  import opened Seqs
  import opened Elimination
  import opened Selection

  /** How a run of `main` ends. `guesses` lists the words entered on the board. */
  datatype SessionEnd =
    | BadStartWord
    | Solved(guesses: seq<Word>)
    | Halted(guesses: seq<Word>, cause: Outcome)
    | OutOfGuesses(guesses: seq<Word>, next: Word, pool: seq<Word>)

  const MaxRounds: nat := 6

  /** `w` is consistent with the row of every guess in `gs`. */
  predicate AdmitsAll(w: Word, gs: seq<Word>, observe: Word -> Row, rules: Rules) {
    forall j | 0 <= j < |gs| :: Admits(w, gs[j], observe(gs[j]), rules)
  }

  /** A listed word that every row so far allows. */
  predicate Consistent(w: Word, words: seq<Word>, gs: seq<Word>, observe: Word -> Row, rules: Rules) {
    w in words && AdmitsAll(w, gs, observe, rules)
  }

  /** Every guess after the first was a listed word consistent with the rows before it. */
  predicate Chosen(gs: seq<Word>, words: seq<Word>, observe: Word -> Row, rules: Rules) {
    forall k | 1 <= k < |gs| :: Consistent(gs[k], words, gs[..k], observe, rules)
  }

  /**
   * `g` is what the scan of `solve_row` can recommend after the rows of `gs`: it
   * has a positive frequency, and every listed word consistent with those rows
   * has a frequency no higher.
   */
  predicate TopScored(g: Word, gs: seq<Word>, words: seq<Word>, freq: Scores, observe: Word -> Row, rules: Rules) {
    && g in freq && freq[g] > 0.0
    && forall w | w in words && AdmitsAll(w, gs, observe, rules) :: w in freq && freq[w] <= freq[g]
  }

  /** Every guess after the first was top-scored among the words the rows before it allowed. */
  predicate Recommended(gs: seq<Word>, words: seq<Word>, freq: Scores, observe: Word -> Row, rules: Rules) {
    forall k | 1 <= k < |gs| :: TopScored(gs[k], gs[..k], words, freq, observe, rules)
  }

  /** No row so far was green or held "other". */
  predicate Unsolved(gs: seq<Word>, observe: Word -> Row) {
    forall k | 0 <= k < |gs| :: !SolutionFound(observe(gs[k])) && Other !in observe(gs[k])
  }

  /**
   * The live pool together with the pending guess holds exactly the listed words
   * consistent with every row so far.
   */
  predicate PoolExact(pool: seq<Word>, guess: Word, gs: seq<Word>, words: seq<Word>, observe: Word -> Row, rules: Rules) {
    && Consistent(guess, words, gs, observe, rules)
    && (forall w | w in pool :: Consistent(w, words, gs, observe, rules))
    && (forall w | w in words && AdmitsAll(w, gs, observe, rules) :: w in pool || w == guess)
  }

  /** Consistency with `gs + [g]` is consistency with `gs` and with the row of `g`. */
  lemma AdmitsAllStep(w: Word, gs: seq<Word>, g: Word, observe: Word -> Row, rules: Rules)
    ensures AdmitsAll(w, gs + [g], observe, rules) <==> AdmitsAll(w, gs, observe, rules) && Admits(w, g, observe(g), rules)
  {
    assert forall j | 0 <= j < |gs| :: (gs + [g])[j] == gs[j];
    assert (gs + [g])[|gs|] == g;
  }

  /** The survivors of a call of `solve_row`: the recommendation and the new pool. */
  lemma SurvivorsOfCall(pool: seq<Word>, g: Word, row: Row, freq: Scores, rules: Rules)
    requires Other !in row
    ensures var o := SolveRow(pool, g, row, freq, rules);
            var e := Eliminate(pool, g, row, rules);
            && (forall w | w in e.pool :: w in pool && Admits(w, g, row, rules))
            && (forall w | w in pool && Admits(w, g, row, rules) :: w in e.pool)
            && (o.Recommend? ==> forall w :: w in e.pool <==> w in o.pool || w == o.word)
  {
    var o := SolveRow(pool, g, row, freq, rules);
    var e := Eliminate(pool, g, row, rules);
    EliminateKeepsAdmitted(pool, g, row, rules);
    if o.Recommend? {
      forall w
        ensures w in e.pool <==> w in o.pool || w == o.word
      {
        assert w in e.pool <==> w in multiset(e.pool);
        assert w in o.pool <==> w in multiset(o.pool);
      }
    }
  }

  /**
   * The survivors of one call of `solve_row` on the row of `guess`, when `pool`
   * and `guess` are exactly the words consistent with `gs` (for round 1, `gs` is
   * empty and `pool` the whole list): exactly the words consistent with
   * `gs + [guess]`.
   */
  lemma CallSurvivors(pool: seq<Word>, guess: Word, gs: seq<Word>, words: seq<Word>,
                      observe: Word -> Row, rules: Rules)
    requires Other !in observe(guess)
    requires forall w | w in pool :: Consistent(w, words, gs, observe, rules)
    requires forall w | Consistent(w, words, gs, observe, rules) :: w in pool || w == guess
    requires |gs| == 0 ==> pool == words
    requires |gs| > 0 ==> !SolutionFound(observe(guess))
    ensures var e := Eliminate(pool, guess, observe(guess), rules);
            forall w :: w in e.pool <==> Consistent(w, words, gs + [guess], observe, rules)
  {
    var row := observe(guess);
    var next := gs + [guess];
    var e := Eliminate(pool, guess, row, rules);
    forall w
      ensures AdmitsAll(w, next, observe, rules) <==> AdmitsAll(w, gs, observe, rules) && Admits(w, guess, row, rules)
    {
      AdmitsAllStep(w, gs, guess, observe, rules);
    }
    EliminateKeepsAdmitted(pool, guess, row, rules);
    if |gs| > 0 {
      NotSelfAdmitted(guess, row, rules);
    }
  }

  /**
   * A recommendation leaves the new pool and the next guess exactly the words
   * consistent with `gs + [guess]`.
   */
  lemma CallKeepsPoolExact(pool: seq<Word>, guess: Word, gs: seq<Word>, words: seq<Word>, freq: Scores,
                           observe: Word -> Row, rules: Rules)
    requires forall w | w in pool :: Consistent(w, words, gs, observe, rules)
    requires forall w | Consistent(w, words, gs, observe, rules) :: w in pool || w == guess
    requires |gs| == 0 ==> pool == words
    requires !SolutionFound(observe(guess))
    ensures var o := SolveRow(pool, guess, observe(guess), freq, rules);
            o.Recommend? ==> PoolExact(o.pool, o.word, gs + [guess], words, observe, rules)
  {
    var row := observe(guess);
    var o := SolveRow(pool, guess, row, freq, rules);
    if o.Recommend? {
      CallSurvivors(pool, guess, gs, words, observe, rules);
      SurvivorsOfCall(pool, guess, row, freq, rules);
    }
  }

  /**
   * The word a call recommends is top-scored among the words consistent with
   * `gs + [guess]`.
   */
  lemma CallRecommendsTop(pool: seq<Word>, guess: Word, gs: seq<Word>, words: seq<Word>, freq: Scores,
                          observe: Word -> Row, rules: Rules)
    requires forall w | w in pool :: Consistent(w, words, gs, observe, rules)
    requires forall w | Consistent(w, words, gs, observe, rules) :: w in pool || w == guess
    requires |gs| == 0 ==> pool == words
    requires !SolutionFound(observe(guess))
    ensures var o := SolveRow(pool, guess, observe(guess), freq, rules);
            o.Recommend? ==> TopScored(o.word, gs + [guess], words, freq, observe, rules)
  {
    var row := observe(guess);
    var o := SolveRow(pool, guess, row, freq, rules);
    if o.Recommend? {
      CallSurvivors(pool, guess, gs, words, observe, rules);
      ScoredMembers(Eliminate(pool, guess, row, rules).pool, freq);
    }
  }

  /** Entering a top-scored word keeps every guess after the first recommended. */
  lemma EnterTop(gs: seq<Word>, g: Word, words: seq<Word>, freq: Scores, observe: Word -> Row, rules: Rules)
    requires Recommended(gs, words, freq, observe, rules)
    requires |gs| >= 1 ==> TopScored(g, gs, words, freq, observe, rules)
    ensures Recommended(gs + [g], words, freq, observe, rules)
  {
    var next := gs + [g];
    assert next[..|gs|] == gs;
    forall k | 1 <= k < |next|
      ensures TopScored(next[k], next[..k], words, freq, observe, rules)
    {
      if k < |gs| {
        assert next[k] == gs[k] && next[..k] == gs[..k];
      }
    }
  }

  /** The other outcomes of the call say why the script stops. */
  lemma CallStops(pool: seq<Word>, guess: Word, gs: seq<Word>, words: seq<Word>, freq: Scores,
                  observe: Word -> Row, rules: Rules)
    requires forall w | w in pool :: Consistent(w, words, gs, observe, rules)
    requires forall w | Consistent(w, words, gs, observe, rules) :: w in pool || w == guess
    requires |gs| == 0 ==> pool == words
    requires |gs| > 0 ==> !SolutionFound(observe(guess))
    ensures var o := SolveRow(pool, guess, observe(guess), freq, rules);
            && (o.MissingScore? ==> Consistent(o.word, words, gs + [guess], observe, rules) && o.word !in freq)
            && (o.NoCandidate? ==> forall w | Consistent(w, words, gs + [guess], observe, rules) :: w in freq && freq[w] <= 0.0)
  {
    var row := observe(guess);
    if Other !in row {
      CallSurvivors(pool, guess, gs, words, observe, rules);
    }
  }

  /** Entering a word consistent with the history keeps the guesses chosen and duplicate-free. */
  lemma Enter(gs: seq<Word>, guess: Word, words: seq<Word>, observe: Word -> Row, rules: Rules)
    requires Chosen(gs, words, observe, rules) && Unsolved(gs, observe) && Distinct(gs)
    requires |gs| >= 1 ==> Consistent(guess, words, gs, observe, rules)
    ensures Chosen(gs + [guess], words, observe, rules) && Distinct(gs + [guess])
  {
    var next := gs + [guess];
    assert next[..|gs|] == gs;
    forall k | 1 <= k < |next|
      ensures Consistent(next[k], words, next[..k], observe, rules)
    {
      if k < |gs| {
        assert next[k] == gs[k] && next[..k] == gs[..k];
      }
    }
    forall j | 0 <= j < |gs|
      ensures gs[j] != guess
    {
      var g := gs[j];
      assert Admits(guess, g, observe(g), rules);
      NotSelfAdmitted(g, observe(g), rules);
    }
  }

  /**
   * What every run that got past the start-word check guarantees, for the word
   * list `words`: at most six words entered, none twice, each after the first a
   * listed word consistent with the earlier rows and top-scored among them; no
   * row before the last was green; and the way the run ended is justified by the
   * last row and call.
   */
  predicate Ending(r: SessionEnd, words: seq<Word>, freq: Scores, observe: Word -> Row, rules: Rules)
    requires !r.BadStartWord?
  {
    && 1 <= |r.guesses| <= MaxRounds && Distinct(r.guesses)
    && Chosen(r.guesses, words, observe, rules)
    && Recommended(r.guesses, words, freq, observe, rules)
    && Unsolved(r.guesses[..|r.guesses| - 1], observe)
    && (r.Solved? ==> SolutionFound(observe(r.guesses[|r.guesses| - 1])))
    && (r.Halted? ==> !r.cause.Recommend?)
    && (r.Halted? && |r.guesses| > 1 ==> !SolutionFound(observe(r.guesses[|r.guesses| - 1])))
    && (r.Halted? ==> (r.cause.StatusOther? <==> Other in observe(r.guesses[|r.guesses| - 1])))
    && (r.Halted? && r.cause.MissingScore? ==>
          Consistent(r.cause.word, words, r.guesses, observe, rules) && r.cause.word !in freq)
    && (r.Halted? && r.cause.NoCandidate? ==>
          forall w | w in words && AdmitsAll(w, r.guesses, observe, rules) :: w in freq && freq[w] <= 0.0)
    && (r.OutOfGuesses? ==>
          && |r.guesses| == MaxRounds && Unsolved(r.guesses, observe)
          && PoolExact(r.pool, r.next, r.guesses, words, observe, rules)
          && TopScored(r.next, r.guesses, words, freq, observe, rules))
  }

  /**
   * When the first call of `solve_row` returns no word, ending the run in round 1
   * with that outcome is justified, whatever the row, green included.
   */
  lemma HaltedAtOpening(first: Word, words: seq<Word>, freq: Scores, observe: Word -> Row, rules: Rules)
    ensures var o := SolveRow(words, first, observe(first), freq, rules);
            !o.Recommend? ==> Ending(Halted([first], o), words, freq, observe, rules)
  {
    CallStops(words, first, [], words, freq, observe, rules);
    assert [] + [first] == [first];
    assert [first][..0] == [];
  }

  /** A run that stops on a green row after entering `g`. */
  lemma SolvedEnding(gs: seq<Word>, g: Word, words: seq<Word>, freq: Scores, observe: Word -> Row, rules: Rules)
    requires |gs| < MaxRounds && Unsolved(gs, observe) && SolutionFound(observe(g))
    requires Chosen(gs + [g], words, observe, rules) && Distinct(gs + [g])
    requires Recommended(gs + [g], words, freq, observe, rules)
    ensures Ending(Solved(gs + [g]), words, freq, observe, rules)
  {
    assert (gs + [g])[..|gs|] == gs;
  }

  /** A run that stops in a later round because `solve_row` returned no word. */
  lemma HaltedEnding(gs: seq<Word>, g: Word, o: Outcome, words: seq<Word>, freq: Scores,
                     observe: Word -> Row, rules: Rules)
    requires |gs| < MaxRounds && Unsolved(gs, observe) && !SolutionFound(observe(g))
    requires Chosen(gs + [g], words, observe, rules) && Distinct(gs + [g])
    requires Recommended(gs + [g], words, freq, observe, rules)
    requires !o.Recommend?
    requires o.StatusOther? <==> Other in observe(g)
    requires o.MissingScore? ==> Consistent(o.word, words, gs + [g], observe, rules) && o.word !in freq
    requires o.NoCandidate? ==> forall w | Consistent(w, words, gs + [g], observe, rules) :: w in freq && freq[w] <= 0.0
    ensures Ending(Halted(gs + [g], o), words, freq, observe, rules)
  {
    assert (gs + [g])[..|gs|] == gs;
  }

  /** A run that used all six rounds without a green row. */
  lemma OutOfGuessesEnding(gs: seq<Word>, g: Word, pool: seq<Word>, words: seq<Word>, freq: Scores,
                           observe: Word -> Row, rules: Rules)
    requires |gs| == MaxRounds && Unsolved(gs, observe)
    requires Chosen(gs, words, observe, rules) && Distinct(gs)
    requires PoolExact(pool, g, gs, words, observe, rules)
    requires Recommended(gs, words, freq, observe, rules) && TopScored(g, gs, words, freq, observe, rules)
    ensures Ending(OutOfGuesses(gs, g, pool), words, freq, observe, rules)
  {
  }

  /** Entering an unsolved row keeps the history unsolved. */
  lemma UnsolvedStep(gs: seq<Word>, g: Word, observe: Word -> Row)
    requires Unsolved(gs, observe) && !SolutionFound(observe(g)) && Other !in observe(g)
    ensures Unsolved(gs + [g], observe)
  {
    assert forall k | 0 <= k < |gs| :: (gs + [g])[k] == gs[k];
  }

  /**
   * The state between rounds: the words entered so far were chosen and
   * recommended, none twice, none on a green or "other" row, and the live pool
   * and the pending recommendation are exactly the consistent words.
   */
  predicate Midgame(pool: seq<Word>, g: Word, gs: seq<Word>, words: seq<Word>, freq: Scores,
                    observe: Word -> Row, rules: Rules) {
    && 1 <= |gs| <= MaxRounds
    && Chosen(gs, words, observe, rules) && Unsolved(gs, observe) && Distinct(gs)
    && PoolExact(pool, g, gs, words, observe, rules)
    && Recommended(gs, words, freq, observe, rules) && TopScored(g, gs, words, freq, observe, rules)
  }

  /**
   * One of rounds 2 to 6: enter the pending word `g`; a green row ends the run,
   * a call of `solve_row` without a recommendation ends it too, and otherwise
   * the recommendation and the new pool carry on to the next round.
   */
  method Round(pool: seq<Word>, g: Word, gs: seq<Word>, words: seq<Word>, freq: Scores,
               observe: Word -> Row, rules: Rules) returns (done: Option<SessionEnd>, nextPool: seq<Word>, next: Word)
    requires Midgame(pool, g, gs, words, freq, observe, rules) && |gs| < MaxRounds
    ensures done.Some? ==> !done.value.BadStartWord? && done.value.guesses == gs + [g]
                           && Ending(done.value, words, freq, observe, rules)
    ensures done.Some? <==> SolutionFound(observe(g)) || !SolveRow(pool, g, observe(g), freq, rules).Recommend?
    ensures done.None? ==> var o := SolveRow(pool, g, observe(g), freq, rules);
                           && nextPool == o.pool && next == o.word
                           && Midgame(nextPool, next, gs + [g], words, freq, observe, rules)
  {
    var row := observe(g);
    Enter(gs, g, words, observe, rules);
    EnterTop(gs, g, words, freq, observe, rules);
    if SolutionFound(row) {
      SolvedEnding(gs, g, words, freq, observe, rules);
      return Some(Solved(gs + [g])), pool, g;
    }
    var o := SolveRow(pool, g, row, freq, rules);
    if !o.Recommend? {
      CallStops(pool, g, gs, words, freq, observe, rules);
      HaltedEnding(gs, g, o, words, freq, observe, rules);
      return Some(Halted(gs + [g], o)), pool, g;
    }
    CallKeepsPoolExact(pool, g, gs, words, freq, observe, rules);
    CallRecommendsTop(pool, g, gs, words, freq, observe, rules);
    UnsolvedStep(gs, g, observe);
    return None, o.pool, o.word;
  }

  /**
   * Rounds 2 to 6 of `main` (the `for i in range(2, 7)` loop): enter the pending
   * guess; a green row ends the run, otherwise `solve_row` narrows the pool and
   * picks the next guess.
   */
  method LaterRounds(pool: seq<Word>, guess: Word, guesses: seq<Word>, words: seq<Word>, freq: Scores,
                     observe: Word -> Row, rules: Rules) returns (r: SessionEnd)
    requires Midgame(pool, guess, guesses, words, freq, observe, rules)
    ensures !r.BadStartWord? && |guesses| <= |r.guesses| && r.guesses[..|guesses|] == guesses
    ensures |guesses| < MaxRounds ==> |guesses| < |r.guesses| && r.guesses[|guesses|] == guess
    ensures |guesses| == MaxRounds ==> r == OutOfGuesses(guesses, guess, pool)
    ensures Ending(r, words, freq, observe, rules)
  {
    var gs := guesses;
    var p := pool;
    var g := guess;
    while |gs| < MaxRounds
      invariant |guesses| <= |gs| && gs[..|guesses|] == guesses
      invariant Midgame(p, g, gs, words, freq, observe, rules)
      invariant |gs| == |guesses| ==> g == guess && p == pool
      invariant |gs| > |guesses| ==> gs[|guesses|] == guess
      decreases MaxRounds - |gs|
    {
      var entered := gs + [g];
      assert entered[..|guesses|] == guesses && entered[|guesses|] == guess by {
        assert entered[..|gs|] == gs;
      }
      var done, nextPool, next := Round(p, g, gs, words, freq, observe, rules);
      if done.Some? {
        return done.value;
      }
      gs, p, g := entered, nextPool, next;
    }
    OutOfGuessesEnding(gs, g, p, words, freq, observe, rules);
    return OutOfGuesses(gs, g, p);
  }

  /** A recommendation in round 1 on a row that is not green starts the later rounds. */
  lemma FirstCall(words: seq<Word>, first: Word, freq: Scores, observe: Word -> Row, rules: Rules)
    requires !SolutionFound(observe(first))
    ensures var o := SolveRow(words, first, observe(first), freq, rules);
            o.Recommend? ==> Midgame(o.pool, o.word, [first], words, freq, observe, rules)
  {
    FirstCallPool(words, first, freq, observe, rules);
    FirstCallTop(words, first, freq, observe, rules);
  }

  /** Round 1's call leaves the pool and the recommendation exactly the consistent words. */
  lemma FirstCallPool(words: seq<Word>, first: Word, freq: Scores, observe: Word -> Row, rules: Rules)
    requires !SolutionFound(observe(first))
    ensures var o := SolveRow(words, first, observe(first), freq, rules);
            o.Recommend? ==> && Chosen([first], words, observe, rules) && Unsolved([first], observe)
                             && Distinct([first]) && PoolExact(o.pool, o.word, [first], words, observe, rules)
  {
    var o := SolveRow(words, first, observe(first), freq, rules);
    assert [] + [first] == [first];
    Enter([], first, words, observe, rules);
    if o.Recommend? {
      UnsolvedStep([], first, observe);
      CallKeepsPoolExact(words, first, [], words, freq, observe, rules);
    }
  }

  /** Round 1's recommendation is top-scored among the consistent words. */
  lemma FirstCallTop(words: seq<Word>, first: Word, freq: Scores, observe: Word -> Row, rules: Rules)
    requires !SolutionFound(observe(first))
    ensures var o := SolveRow(words, first, observe(first), freq, rules);
            o.Recommend? ==> && Recommended([first], words, freq, observe, rules)
                             && TopScored(o.word, [first], words, freq, observe, rules)
  {
    assert [] + [first] == [first];
    CallRecommendsTop(words, first, [], words, freq, observe, rules);
  }

  /** A green row in round 1, after a call that recommended a word. */
  lemma SolvedAtOpening(first: Word, words: seq<Word>, freq: Scores, observe: Word -> Row, rules: Rules)
    requires SolutionFound(observe(first))
    ensures Ending(Solved([first]), words, freq, observe, rules)
  {
    Enter([], first, words, observe, rules);
    assert [] + [first] == [first];
    SolvedEnding([], first, words, freq, observe, rules);
  }

  /**
   * Round 1 of `main` on a usable start word `first`: `solve_row` runs on its row
   * before the row is checked for green, so a call without a recommendation ends
   * the run even on a green row; otherwise a green row ends it, and else the
   * recommendation is the second word entered and rounds 2 to 6 follow.
   */
  method Opening(words: seq<Word>, first: Word, freq: Scores, observe: Word -> Row, rules: Rules)
    returns (r: SessionEnd)
    ensures !r.BadStartWord? && Ending(r, words, freq, observe, rules) && r.guesses[0] == first
    ensures var o := SolveRow(words, first, observe(first), freq, rules);
            && (!o.Recommend? ==> r == Halted([first], o))
            && (o.Recommend? && SolutionFound(observe(first)) ==> r == Solved([first]))
            && (o.Recommend? && !SolutionFound(observe(first)) ==> 1 < |r.guesses| && r.guesses[1] == o.word)
  {
    var row := observe(first);
    var o := SolveRow(words, first, row, freq, rules);
    if !o.Recommend? {
      HaltedAtOpening(first, words, freq, observe, rules);
      return Halted([first], o);
    }
    if SolutionFound(row) {
      SolvedAtOpening(first, words, freq, observe, rules);
      return Solved([first]);
    }
    FirstCall(words, first, freq, observe, rules);
    r := LaterRounds(o.pool, o.word, [first], words, freq, observe, rules);
    assert r.guesses[0] == r.guesses[..1][0];
  }

  /**
   * `main`: load the lists, reject an unusable start word, then play from round
   * 1. The result records the words entered. Later rounds enter the word the
   * previous call recommended; a green row ends the run, and so does a call
   * without a recommendation; the run gives up after six rounds, holding the
   * word it would have entered next and the pool. Throughout, the pool plus the
   * pending word are exactly the listed words consistent with every row seen,
   * and no word is entered twice.
   */
  method Play(start: string, wordLines: seq<string>, allowedLines: seq<string>, freq: Scores,
              observe: Word -> Row, rules: Rules) returns (r: SessionEnd)
    ensures r.BadStartWord? <==> !StartWordValid(start, LoadWords(wordLines), LoadWords(allowedLines))
    ensures !r.BadStartWord? ==> Ending(r, LoadWords(wordLines), freq, observe, rules) && r.guesses[0] == start
    ensures !r.BadStartWord? ==>
              var o := SolveRow(LoadWords(wordLines), start, observe(start), freq, rules);
              && (!o.Recommend? ==> r == Halted([start], o))
              && (o.Recommend? && SolutionFound(observe(start)) ==> r == Solved([start]))
              && (o.Recommend? && !SolutionFound(observe(start)) ==> 1 < |r.guesses| && r.guesses[1] == o.word)
  {
    var words := LoadWords(wordLines);
    var allowed := LoadWords(allowedLines);
    if !StartWordValid(start, words, allowed) {
      return BadStartWord;
    }
    r := Opening(words, start, freq, observe, rules);
  }
}

=== FILE: soundness.dfy ===
/**
 * `main` against a real game. When the board colours every guess by Wordle's
 * rules for a hidden answer that is in the word list, and the count test asks
 * for at least as many copies as the guess shows, the solver never loses the
 * answer: the run either ends on the answer or gives up with the answer still
 * pending or in the pool. With the exact-count test this fails (see
 * `Feedback.ExactCountDropsAnswer`).
 */
module Soundness {
  import opened Words
  import opened Statuses
  import opened Elimination
  import opened Selection
  import opened Feedback
  import opened Session

  /** The answer is consistent with the rows the game gives for any guesses. */
  lemma AnswerConsistent(answer: Word, gs: seq<Word>, rules: Rules)
    requires rules.countRule == AtLeastCount
    ensures AdmitsAll(answer, gs, (g: Word) => Score(answer, g), rules)
  {
    forall j | 0 <= j < |gs|
      ensures Admits(answer, gs[j], Score(answer, gs[j]), rules)
    {
      AnswerAdmitted(answer, gs[j], rules);
    }
  }

  /**
   * Under those conditions, however a run of `main` ends, it did not lose the
   * answer: a green row, or six rounds with the answer pending or in the pool.
   */
  lemma AnswerNeverLost(r: SessionEnd, answer: Word, words: seq<Word>, freq: Scores, rules: Rules)
    requires !r.BadStartWord? && rules.countRule == AtLeastCount
    requires answer in words && (forall w | w in words :: w in freq) && freq[answer] > 0.0
    requires Ending(r, words, freq, (g: Word) => Score(answer, g), rules)
    ensures r.Solved? || (r.OutOfGuesses? && (r.next == answer || answer in r.pool))
  {
    AnswerConsistent(answer, r.guesses, rules);
  }

  /**
   * A game of `main` whose board is coloured against `answer`. If the answer is
   * listed, every listed word has a frequency, the answer's is positive, the
   * start word is usable and the count test is the corrected one, then the run
   * ends on the answer or gives up still holding it.
   */
  method PlayAgainst(answer: Word, start: string, wordLines: seq<string>, allowedLines: seq<string>,
                     freq: Scores, rules: Rules) returns (r: SessionEnd)
    ensures r.BadStartWord? <==> !StartWordValid(start, LoadWords(wordLines), LoadWords(allowedLines))
    ensures r.Solved? ==> |r.guesses| > 0 && r.guesses[|r.guesses| - 1] == answer
    ensures && rules.countRule == AtLeastCount
            && answer in LoadWords(wordLines)
            && (forall w | w in LoadWords(wordLines) :: w in freq)
            && freq[answer] > 0.0
            && !r.BadStartWord?
            ==> r.Solved? || (r.OutOfGuesses? && (r.next == answer || answer in r.pool))
  {
    var observe: Word -> Row := (g: Word) => Score(answer, g);
    r := Play(start, wordLines, allowedLines, freq, observe, rules);
    var words := LoadWords(wordLines);
    if r.Solved? {
      SolvedIffAnswer(answer, r.guesses[|r.guesses| - 1]);
    }
    if && rules.countRule == AtLeastCount && answer in words
       && (forall w | w in words :: w in freq) && freq[answer] > 0.0 && !r.BadStartWord? {
      AnswerNeverLost(r, answer, words, freq, rules);
    }
  }
}

=== FILE: status.dfy ===
/**
 * The feedback the game gives for one guess: one status per letter. The colour
 * reading that produces it is outside the model; a row arrives already
 * classified.
 */
module Statuses {
  import opened Words

  /** `"correct"`, `"present"`, `"absent"`, and `"other"` for an unreadable tile. */
  datatype Status = Correct | Present | Absent | Other

  type Row = r: seq<Status> | |r| == WordLength witness [Correct, Correct, Correct, Correct, Correct]

  /** Python's `set(ss) == {s}`: the list is non-empty and holds `s` only. */
  function OnlyStatus(ss: seq<Status>, s: Status): (b: bool)
    ensures b <==> |ss| > 0 && forall i | 0 <= i < |ss| :: ss[i] == s
  {
    var seen := set x | x in ss;
    if seen == {s} then
      assert s in seen;
      assert forall i | 0 <= i < |ss| :: ss[i] in seen;
      true
    else
      assert !(|ss| > 0 && forall i | 0 <= i < |ss| :: ss[i] == s) by {
        if |ss| > 0 && forall i | 0 <= i < |ss| :: ss[i] == s {
          assert ss[0] in seen;
          assert forall x | x in seen :: x == s;
        }
      }
      false
  }

  /** `solution_found`: every tile of the row is green. */
  function SolutionFound(row: seq<Status>): (b: bool)
    ensures b <==> |row| > 0 && forall i | 0 <= i < |row| :: row[i] == Correct
    ensures b ==> Present !in row && Absent !in row && Other !in row
  {
    OnlyStatus(row, Correct)
  }

  /**
   * The statuses of the positions holding `c` in the guess, in guess order
   * (the list stored in `multi_char[c]`).
   */
  function StatusesOf(g: string, row: seq<Status>, c: char): (r: seq<Status>)
    requires |row| == |g|
    ensures |r| == Count(g, c)
    ensures forall s | s in r :: exists j | 0 <= j < |g| :: g[j] == c && row[j] == s
    ensures forall j | 0 <= j < |g| && g[j] == c :: row[j] in r
  {
    if |g| == 0 then []
    else
      assert g == [g[0]] + g[1..];
      assert multiset(g) == multiset{g[0]} + multiset(g[1..]);
      var rest := StatusesOf(g[1..], row[1..], c);
      assert forall j | 1 <= j < |g| :: g[j] == g[1..][j - 1] && row[j] == row[1..][j - 1];
      if g[0] == c then [row[0]] + rest else rest
  }

  /**
   * The list grows left to right, as `solve_row` builds it by appending the
   * status of each match of `c` in turn: extending the guess by one letter
   * appends that letter's status exactly when it is `c`.
   */
  lemma {:induction false} StatusesOfAppend(g: string, row: seq<Status>, c: char, x: char, s: Status)
    requires |row| == |g|
    ensures StatusesOf(g + [x], row + [s], c) == StatusesOf(g, row, c) + (if x == c then [s] else [])
    decreases |g|
  {
    if |g| > 0 {
      assert (g + [x])[1..] == g[1..] + [x];
      assert (row + [s])[1..] == row[1..] + [s];
      StatusesOfAppend(g[1..], row[1..], c, x, s);
    } else {
      assert StatusesOf([x], [s], c) == (if x == c then [s] else []) + StatusesOf([], [], c);
    }
  }

  /**
   * The status lists of a repeated letter that trigger the exact-count filter,
   * exactly as listed in `solve_row`. Uniform lists such as [Correct, Correct]
   * are not among them.
   */
  const CountPatterns: seq<seq<Status>> := [
    [Present, Correct], [Correct, Present],
    [Present, Correct, Correct], [Present, Correct, Present],
    [Correct, Present, Present], [Correct, Present, Correct]
  ]

  /**
   * What the patterns have in common: two or three entries, at least one
   * Present and one Correct, never Absent or Other. So a letter whose tiles are
   * all green, or all yellow, gets no count filter.
   */
  lemma PatternShape(p: seq<Status>)
    requires p in CountPatterns
    ensures 2 <= |p| <= 3
    ensures Present in p && Correct in p
    ensures Absent !in p && Other !in p
    ensures !OnlyStatus(p, Correct) && !OnlyStatus(p, Present)
  {
  }
}

=== FILE: words.dfy ===
/**
 * Words and the dictionary loader. A word is a five-letter string; the loader
 * turns the lines of a dictionary file into the list of words the solver starts
 * from: each line is stripped of surrounding whitespace, kept only when exactly
 * five characters remain, and lower-cased.
 */
module Words {

  const WordLength: nat := 5

  type Word = s: string | |s| == WordLength witness "aaaaa"

  /** Occurrences of `c` in `s` (Python's `Counter(s)[c]`). */
  function Count(s: string, c: char): nat {
    multiset(s)[c]
  }

  /** The first position of `c` in `s`. */
  function FirstAt(s: string, c: char): (k: nat)
    requires c in s
    ensures k < |s| && s[k] == c && c !in s[..k]
  {
    if s[0] == c then 0
    else
      var k := 1 + FirstAt(s[1..], c);
      assert s[..k] == [s[0]] + s[1..][..k - 1];
      k
  }

  /** The ASCII characters Python's `str.strip()` treats as whitespace. */
  predicate IsSpace(c: char) {
    c == ' ' || ('\t' <= c <= '\r') || ('\U{1C}' <= c <= '\U{1F}')
  }

  predicate IsUpper(c: char) {
    'A' <= c <= 'Z'
  }

  /** Number of whitespace characters at the start of `s`. */
  function Lead(s: string): (n: nat)
    ensures n <= |s|
    ensures forall j | 0 <= j < n :: IsSpace(s[j])
    ensures n < |s| ==> !IsSpace(s[n])
  {
    if |s| > 0 && IsSpace(s[0]) then 1 + Lead(s[1..]) else 0
  }

  function StripTrailing(s: string): (r: string)
    ensures |r| <= |s| && r == s[..|r|]
    ensures forall j | |r| <= j < |s| :: IsSpace(s[j])
    ensures |r| > 0 ==> !IsSpace(r[|r| - 1])
  {
    if |s| > 0 && IsSpace(s[|s| - 1]) then StripTrailing(s[..|s| - 1]) else s
  }

  /**
   * `str.strip()`: what lies between the leading and the trailing whitespace of
   * `s`; it neither starts nor ends with whitespace.
   */
  function Strip(s: string): (r: string)
    ensures Lead(s) + |r| <= |s| && r == s[Lead(s)..Lead(s) + |r|]
    ensures forall j | Lead(s) + |r| <= j < |s| :: IsSpace(s[j])
    ensures |r| > 0 ==> !IsSpace(r[0]) && !IsSpace(r[|r| - 1])
  {
    var n := Lead(s);
    var r := StripTrailing(s[n..]);
    assert forall j | n + |r| <= j < |s| :: s[j] == s[n..][j - n];
    assert r == s[n..][..|r|] == s[n..n + |r|];
    r
  }

  function LowerChar(c: char): (d: char)
    ensures !IsUpper(d)
    ensures IsUpper(c) ==> d as int == c as int + 32
    ensures !IsUpper(c) ==> d == c
  {
    if IsUpper(c) then (c as int + 32) as char else c
  }

  /**
   * `str.lower()` on ASCII letters: same length, each character lowered on its
   * own, so no upper-case letter is left and every other character is unchanged.
   */
  function Lower(s: string): (r: string)
    ensures |r| == |s|
    ensures forall i | 0 <= i < |s| :: r[i] == LowerChar(s[i])
    ensures forall i | 0 <= i < |r| :: !IsUpper(r[i])
    ensures forall i | 0 <= i < |s| && !IsUpper(s[i]) :: r[i] == s[i]
  {
    seq(|s|, i requires 0 <= i < |s| => LowerChar(s[i]))
  }

  /** The word of one dictionary line, if the line holds one. */
  predicate HoldsWord(line: string) {
    |Strip(line)| == WordLength
  }

  /**
   * The list built by `load_words`: for every line whose stripped form has five
   * characters, in file order, that form lower-cased. Nothing else gets in.
   */
  function LoadWords(lines: seq<string>): (r: seq<Word>)
    ensures |r| <= |lines|
    ensures forall k | 0 <= k < |r| :: forall i | 0 <= i < |r[k]| :: !IsUpper(r[k][i])
  {
    if |lines| == 0 then []
    else
      var t := Strip(lines[0]);
      if |t| == WordLength then [Lower(t)] + LoadWords(lines[1..]) else LoadWords(lines[1..])
  }

  /** One line contributes its word when it holds one, and nothing otherwise. */
  lemma LoadWordsLine(line: string)
    ensures LoadWords([line]) == if HoldsWord(line) then [Lower(Strip(line))] else []
  {
    assert [line][1..] == [];
  }

  /**
   * Loading is line by line in file order: the words of two consecutive parts of
   * a file are the words of the first part followed by those of the second.
   */
  lemma {:induction false} LoadWordsAppend(a: seq<string>, b: seq<string>)
    ensures LoadWords(a + b) == LoadWords(a) + LoadWords(b)
    decreases |a|
  {
    if |a| == 0 {
      assert a + b == b;
    } else {
      assert (a + b)[0] == a[0];
      assert (a + b)[1..] == a[1..] + b;
      LoadWordsAppend(a[1..], b);
    }
  }

  /** Every line holding a word contributes it, and every loaded word comes from a line. */
  lemma {:induction false} LoadWordsMembers(lines: seq<string>)
    ensures forall j | 0 <= j < |lines| && HoldsWord(lines[j]) :: Lower(Strip(lines[j])) in LoadWords(lines)
    ensures forall w | w in LoadWords(lines) ::
              exists j | 0 <= j < |lines| :: HoldsWord(lines[j]) && w == Lower(Strip(lines[j]))
  {
    if |lines| > 0 {
      var tail := lines[1..];
      LoadWordsMembers(tail);
      forall j | 1 <= j < |lines|
        ensures lines[j] == tail[j - 1]
      {
      }
      forall w | w in LoadWords(lines)
        ensures exists j | 0 <= j < |lines| :: HoldsWord(lines[j]) && w == Lower(Strip(lines[j]))
      {
        if w in LoadWords(tail) {
          var j :| 0 <= j < |tail| && HoldsWord(tail[j]) && w == Lower(Strip(tail[j]));
          assert lines[j + 1] == tail[j];
        } else {
          assert HoldsWord(lines[0]) && w == Lower(Strip(lines[0]));
        }
      }
    }
  }

  /**
   * The start-word check of `main`: the word must be in the word list or the
   * allowed guesses, and have five characters. Since both lists hold only
   * words, the length test never decides anything.
   */
  function StartWordValid(start: string, words: seq<Word>, allowed: seq<Word>): (ok: bool)
    ensures ok <==> start in words || start in allowed
    ensures ok ==> |start| == WordLength
  {
    (start in words || start in allowed) && |start| == WordLength
  }
}
